=== FILE: README.md ===
# dark-binding: the League client configuration swap, in Dafny

dark-binding runs beside the League of Legends client. It finds the client's
process arguments and reads the credentials from them. It then listens on
the client's local websocket. When champion select reaches its finalization
phase, it swaps the client's `Config/PersistedSettings.json` for a
per-champion copy (`Config/<championId>.json`). The original is kept as
`PersistedSettings.bak`, and a restore moves it back, carrying over the
`Game.cfg` section of whatever was linked in.

This project models that core in Dafny:

- `decimal.dfy` (module `Decimal`): decimal text of numbers and the `u32` parser.
- `structs.dfy` (module `Structs`):
  - the JSON values the client sends;
  - the serde decoders of `src/league_client/structs.rs`, including the
    lenient `to_str` id field and the champion-select timer phase.
- `websocket.dfy` (module `Websocket`): the WAMP frame decoder of
  `src/league_client/websocket.rs`, and which champion an update asks to load.
- `fs.dfy` (module `Fs`):
  - a filesystem of regular files, directories and symbolic links;
  - each `std::fs` call the core makes, as a function on the tree;
  - a `FileSystem` class whose methods change the tree in place.
- `util.dfy` (module `Util`):
  - the four credential regexes, defined as what a match is, and
    `parse_credentials`;
  - `build_uri`, `is_symlink`, `ensure_dir`, `read_settings_json` and
    `write_settings_json`.
- `client.dfy` (module `Client`):
  - the settings paths, `Game.cfg` splicing, backup, restore, create and
    load, as functions from a tree to a status and a new tree;
  - the `LeagueClient` class, whose methods run those on its `FileSystem`;
  - the `connect` event loop over a sequence of commands and frames.
- `client_intended.dfy` (module `ClientIntended`): the swap with the
  faults below corrected. `restore_config` recognises a loaded live file
  by `read_link` (`src/league_client/client.rs:95`) and calls it "one of
  our hard links" (line 98); only a symbolic link passes that check, so
  the corrected load links the slot in with one. It is the corrected half
  of each finding below.

Several things in the model are explicit parameters:

- the HTTP responses `init` and `update_local_summoner` decode arrive as
  JSON values;
- the merged stream of websocket frames and application commands arrives
  as a sequence;
- the operating system's filesystem is a `FileSystem` object.

## Model

| member | source | states |
|---|---|---|
| Decimal.NatToString | src/league_client/client.rs:144 | `champion_id.to_string()` is non-empty, all digits, with no leading zero except for "0" itself |
| Decimal.ValueOfNatToString | src/league_client/client.rs:144 | reading back the decimal text of a number gives the number |
| Decimal.NatToStringInjective | src/league_client/client.rs:142-145 | different champion ids have different decimal names |
| Decimal.IntToString | src/league_client/structs.rs:78 | a JSON number's text starts with '-' exactly when it is negative; the digits that follow read back as its magnitude |
| Decimal.IntToStringInjective | src/league_client/structs.rs:78 | different numbers give different text |
| Decimal.ParseU32 | src/league_client/util.rs:26-32 | `str::parse::<u32>` succeeds exactly on non-empty digit text, after an optional leading '+', whose value is below 2^32, and yields that value |
| Decimal.ParseU32RoundTrip | src/league_client/util.rs:26-32 | parsing the decimal text of any u32 gives it back |
| Structs.Field | src/league_client/structs.rs:29-35 | a struct field decodes exactly when its key occurs once, and yields that occurrence |
| Structs.FieldsOf | src/league_client/structs.rs:50-55 | a struct decodes from an object exactly when each of its fields does, with the values in declaration order |
| Structs.Fields | src/league_client/structs.rs:44-55 | a struct decodes from an array only of exactly its field count, taking the elements in order; from an object by name; never from a scalar |
| Structs.DecodeU32 | src/league_client/structs.rs:34 | a `u32` field accepts exactly the integers in [0, 2^32) |
| Structs.DecodeU16 | src/league_client/structs.rs:19 | a `u16` field accepts exactly the integers in [0, 2^16) |
| Structs.DecodeString | src/league_client/structs.rs:26 | a `String` field accepts exactly JSON strings |
| Structs.ToStrRepresentationIndependent | src/league_client/structs.rs:73-84 | `to_str` gives the same id for a number and for the string of its decimal text |
| Structs.ToStrDistinguishes | src/league_client/structs.rs:76-80 | different numbers give different ids, and no number reads as "true" or "false" |
| Structs.ToStrCases | src/league_client/structs.rs:76-82 | `to_str` accepts exactly strings, numbers and booleans; strings as they are, booleans as "true"/"false" |
| Structs.DecodePhaseCases | src/league_client/structs.rs:86-104 | any string is a phase: "FINALIZATION" and "BAN_PICK" exactly, every other string `Other`; non-strings are rejected |
| Structs.DecodeTeam | src/league_client/structs.rs:53 | `my_team` decodes exactly when it is an array whose every element is a team member, element by element |
| Structs.DecodeMembers | src/league_client/structs.rs:53 | the elementwise team decoding fails exactly when some element fails |
| Structs.TeamMemberIdRepresentation | src/league_client/structs.rs:29-35 | for any two values whose fields agree except that the summoner id is the number n in one and the text of n in the other, the team members decode the same, with id the text of n |
| Structs.LocalSummonerIdRepresentation | src/league_client/structs.rs:11-21 | likewise for any two local summoner values whose summoner id is n and the text of n |
| Structs.BadMemberRejectsUpdate | src/league_client/structs.rs:50-55 | any session update whose team holds one member that fails to decode is itself undecodable |
| Structs.BadChampionIdRejectsMember | src/league_client/structs.rs:29-35 | a member of any shape whose champion id is not a u32 fails to decode |
| Structs.ToStr | src/league_client/structs.rs:73-84 | `to_str` of a number is its text, reading back as the number with a sign for negatives; null, arrays and objects are rejected |
| Structs.DecodePhase | src/league_client/structs.rs:86-104 | the phase decodes exactly from a string |
| Structs.DecodeTeamMember | src/league_client/structs.rs:29-35 | a team member decodes exactly when its summoner id passes `to_str` and its champion id is a u32, and holds those two values |
| Structs.DecodeTimer | src/league_client/structs.rs:44-48 | the timer decodes exactly when its one field, the phase, is a string |
| Structs.DecodedUpdateWontPanic | src/league_client/structs.rs:86-92 | a session update that decodes never reaches the panic of a missing phase, so the panic only ever replaces an error |
| Structs.MissingPhasePanics | src/league_client/structs.rs:86-92 | an update with an empty team and a timer without `phase` panics, where the decoder alone reports an error |
| Structs.DecodeSessionUpdate | src/league_client/structs.rs:50-55 | a session update decodes exactly when its team and its timer do, and holds the two decoded values |
| Structs.DecodeLocalSummoner | src/league_client/structs.rs:11-21 | the local summoner decodes exactly when its name is a string, both ids pass `to_str`, the level is a u16 and the icon a u32; the ids are the `to_str` texts |
| Structs.DecodeRso | src/league_client/structs.rs:23-27 | the platform record decodes exactly when its one field is a string, which is the platform id |
| Structs.LastWinsKeepsLast | src/league_client/websocket.rs:54 | keeping the last of each repeated key leaves each key that occurred with exactly its last value |
| Structs.FieldOfValue | src/league_client/websocket.rs:106 | a field read from event data held as a `Value` is present exactly when its key occurred, and holds the last value given for it |
| Websocket.DecodeEventType | src/league_client/websocket.rs:24-47 | exactly "Create", "Update" and "Delete" are event types, each giving its own variant |
| Websocket.DecodeWampBody | src/league_client/websocket.rs:49-55 | a body decodes exactly when it has a known event type and a string uri; its data is kept as a `Value`, where a repeated key keeps its last value |
| Websocket.DecodeWampMessage | src/league_client/websocket.rs:71-72 | a WAMP message decodes exactly from an array of three: a u32, a string topic and a decodable body; the topic and body are those elements |
| Websocket.BaseOnMessage | src/league_client/websocket.rs:57-69 | control frames give nothing; a data frame is an error exactly when it does not decode to a message; otherwise it gives the body exactly when the topic is "OnJsonApiEvent" |
| Websocket.FirstMatch | src/league_client/websocket.rs:114-118 | `find` returns the first team member with the id, and nothing exactly when no member has it |
| Websocket.HandleChampSelectUpdate | src/league_client/websocket.rs:104-125 | the handler fails exactly when the data is not a session update |
| Websocket.ControlFrameIgnored | src/league_client/websocket.rs:57-60 | a control frame never loads a champion |
| Websocket.OtherTopicIgnored | src/league_client/websocket.rs:64-66 | a well-formed message on another topic is ignored |
| Websocket.UnknownEventTypeRejectsFrame | src/league_client/websocket.rs:35-41 | any data frame of three parts whose body has an event type other than the three is a decode error, and nothing is loaded |
| Websocket.OnMessage | src/league_client/websocket.rs:75-98 | a frame leads to a load only through an event whose data the handler maps to that champion, and only with a known local summoner |
| Websocket.SessionUpdateInFinalizationLoads | src/league_client/websocket.rs:87-121 | an Update of the session uri in finalization, with the local summoner in the team, loads the champion of the first such member |
| Websocket.ErrorTreatedAsNothing | src/league_client/websocket.rs:78-85 | a decode error and an ignored frame have the same effect: nothing |
| Websocket.LoadOnlyOnSessionUpdateFinalization | src/league_client/websocket.rs:87-97 | a load happens only for an `Update` of "/lol-champ-select/v1/session" in the finalization phase with a known local summoner |
| Websocket.FinalizationPicksFirstMatch | src/league_client/websocket.rs:108-121 | in finalization, the champion loaded is that of the first member with the local summoner's id; without one, nothing is loaded |
| Websocket.NoLoadOutsideFinalization | src/league_client/websocket.rs:108-124 | outside finalization, a well-formed update loads nothing |
| Fs.Follow | src/league_client/client.rs:103 | following links ends at a non-link entry, at a missing path, or in a loop after too many hops |
| Fs.Resolve | src/league_client/client.rs:103 | a lookup ends at a non-link entry or a missing path; a missing path and a non-link entry are their own result |
| Fs.PathExists | src/league_client/client.rs:103 | `Path::exists` is false for a missing path and true for an entry that is not a link |
| Fs.Opens | src/league_client/util.rs:166-174 | a path opens for reading when it leads to a regular file; an entry that is not a link opens exactly when it is a regular file |
| Fs.Target | src/league_client/client.rs:155 | the entry an existing path leads to is never a link |
| Fs.Stat | src/league_client/util.rs:150 | `fs::metadata` succeeds exactly when the path leads to an entry, reports that entry (never a link), and says NotFound exactly for a missing target |
| Fs.LinkTarget | src/league_client/client.rs:95 | `read_link` succeeds exactly on a link and gives its target |
| Fs.Removed | src/league_client/client.rs:104 | `remove_file` succeeds exactly on an existing non-directory, and then removes only that path |
| Fs.Copied | src/league_client/client.rs:85 | `fs::copy` succeeds exactly when the source leads to a regular file and the destination resolves to no directory; it writes the source's content where the destination resolves, truncates a file copied onto itself, and changes nothing when it fails |
| Fs.CopyOntoDanglingLink | src/league_client/client.rs:105 | copying onto a link whose target is missing creates that target and keeps the link |
| Fs.CopyRegular | src/league_client/client.rs:85 | copying a regular file to a free path or another regular file puts a copy there and changes nothing else |
| Fs.Renamed | src/league_client/client.rs:134 | `rename` moves the entry (a link itself) over the destination, always succeeds onto a free path, and changes nothing when it fails |
| Fs.HardLinked | src/league_client/client.rs:159 | `hard_link` succeeds exactly for an existing non-directory source and a free destination, which then holds the same entry |
| Fs.SymLinked | src/league_client/client.rs:159 | a symbolic link can be made exactly at a free path |
| Fs.DirsCreated | src/league_client/util.rs:157 | `create_dir_all` succeeds exactly on a free path or an existing directory, and creates the directory when free |
| Fs.FileSystem.constructor | src/league_client/util.rs:1-4 | the filesystem starts as the given tree |
| Fs.FileSystem.Exists | src/league_client/client.rs:103 | `Path::exists` holds exactly when the path leads to an entry |
| Fs.FileSystem.Metadata | src/league_client/util.rs:150 | the call reports what `Stat` specifies and changes nothing |
| Fs.FileSystem.ReadLink | src/league_client/client.rs:95 | the call reports what `LinkTarget` specifies and changes nothing |
| Fs.FileSystem.Copy | src/league_client/client.rs:85 | the new tree and result are those `Copied` specifies |
| Fs.FileSystem.RemoveFile | src/league_client/client.rs:104 | the new tree and result are those `Removed` specifies |
| Fs.FileSystem.Rename | src/league_client/client.rs:134 | the new tree and result are those `Renamed` specifies |
| Fs.FileSystem.HardLink | src/league_client/client.rs:159 | the new tree and result are those `HardLinked` specifies |
| Fs.FileSystem.CreateDirAll | src/league_client/util.rs:157 | the new tree and result are those `DirsCreated` specifies |
| Fs.FileSystem.Overwrite | src/league_client/util.rs:177-179 | writing an opened regular file replaces its content and nothing else |
| Util.Lift | src/league_client/util.rs:150 | an I/O error stays an error, success stays success |
| Util.RunEnd | src/league_client/util.rs:19-22 | the greedy class run ends at the first character outside the class |
| Util.LastQuote | src/league_client/util.rs:20 | the last double quote in a range, or none when the range has none |
| Util.CaptureAt | src/league_client/util.rs:19-22 | a capture at a position sits after the pattern's key, inside the text |
| Util.Capture | src/league_client/util.rs:26-53 | a capture is found exactly when one exists at some position, and it is the capture at one of them |
| Util.MatchWithinRun | src/league_client/util.rs:19-22 | every match's group fits inside the class run after the key |
| Util.CaptureAtIsLongestMatch | src/league_client/util.rs:19-22 | the capture at a position is a match with the longest group of all matches there, and nothing exactly when none starts there |
| Util.RunCaptureIsLongestMatch | src/league_client/util.rs:19 | the same for the pid, port and install-directory patterns |
| Util.RunCaptured | src/league_client/util.rs:19 | when the run of class characters after the key is non-empty and followed as the pattern needs, it is the group, which is a match and the longest one |
| Util.RunNotCaptured | src/league_client/util.rs:19 | otherwise there is neither a capture nor any match at that position |
| Util.TokenCaptureIsLongestMatch | src/league_client/util.rs:20 | the same for the auth token, whose greedy `\S+` backtracks to the last quote |
| Util.Leftmost | src/league_client/util.rs:26-28 | the scan finds the first position where a capture exists, and none when there is none |
| Util.LeftmostIsFirstMatch | src/league_client/util.rs:26-28 | the scan stops at the first position where a match starts |
| Util.CaptureIsLeftmostLongest | src/league_client/util.rs:26-53 | when a match exists, `captures(..).get(1)` is the longest group of the leftmost match |
| Util.CaptureIsAMatch | src/league_client/util.rs:34-39 | every capture is the group of some match |
| Util.ParseCredentials | src/league_client/util.rs:25-71 | credentials are found exactly when all four patterns match and the pid fits a u32; pid, port, token and directory are those captures; the first failure in source order is the error |
| Util.PidOverflowIsError | src/league_client/util.rs:26-32 | a pid of 2^32 or more is an error, not a wrapped value |
| Util.PidCaptureIsDigits | src/league_client/util.rs:19 | the pid capture is non-empty ASCII digits with no sign, so `parse` sees it as it is |
| Util.BuildUri | src/league_client/util.rs:104-107 | the uri starts with the local https origin on the port and a slash, and ends with the endpoint |
| Util.BuildUriShape | src/league_client/util.rs:104-107 | the uri is the local https origin on the port, a slash, and the endpoint with its own leading slash, if any, dropped |
| Util.BuildUriSlashInsensitive | src/league_client/util.rs:104-107 | an endpoint with or without its leading slash gives the same uri |
| Util.SymlinkCheck | src/league_client/util.rs:149-151 | `is_symlink` succeeds exactly when the path leads to an entry, and then always says false |
| Util.IsSymlink | src/league_client/util.rs:149-151 | the call returns what `SymlinkCheck` specifies and never reports a link |
| Util.DirEnsured | src/league_client/util.rs:153-164 | `ensure_dir` leaves an existing path alone, creates a directory at a free path, and fails without change otherwise |
| Util.EnsureDir | src/league_client/util.rs:153-164 | the new tree and result are those `DirEnsured` specifies |
| Util.SettingsRead | src/league_client/util.rs:166-174 | reading succeeds exactly when the file holds a settings document, which is returned; otherwise a JSON error |
| Util.ReadSettingsJson | src/league_client/util.rs:166-174 | the call returns what `SettingsRead` specifies and changes nothing |
| Util.SettingsWritten | src/league_client/util.rs:176-180 | writing succeeds exactly when the path opens as a regular file, whose content becomes the document; a failure changes nothing |
| Util.WriteSettingsJson | src/league_client/util.rs:176-180 | the new tree and result are those `SettingsWritten` specifies |
| Client.LastDot | src/league_client/client.rs:58 | the position of the last dot in a file name, or none when it has no dot |
| Client.StemOf | src/league_client/client.rs:58 | setting an extension strips exactly the old one from a name with a stem |
| Client.StemWithoutDot | src/league_client/client.rs:145 | a name without a dot is its own stem |
| Client.Stem | src/league_client/client.rs:58 | `file_stem` is a non-empty prefix of a non-empty name, the whole name when it has no dot |
| Client.SetFileName | src/league_client/client.rs:144 | `set_file_name` keeps the parent and ends the path with the new name, appending it when there is no file name |
| Client.SetExtension | src/league_client/client.rs:58 | `set_extension` keeps the parent, keeps the stem of the file name, leaves a path without a file name alone, and with an empty extension leaves just the stem |
| Client.LivePath | src/league_client/client.rs:52-54 | the live settings file is `PersistedSettings.json` directly in the configuration folder |
| Client.BackupPath | src/league_client/client.rs:56-61 | the backup is `PersistedSettings.bak` in the configuration folder |
| Client.SlotPath | src/league_client/client.rs:142-145 | the slot is `<championId>.json` in the configuration folder |
| Client.LiveIsNotBackup | src/league_client/client.rs:52-61 | the live settings file and its backup are different paths |
| Client.PathsDistinct | src/league_client/client.rs:142-145 | no slot is the live file or the backup, and different champions have different slots |
| Client.FirstNamed | src/league_client/client.rs:111-114 | `find` returns the first settings file with the name, and nothing exactly when none has it |
| Client.SpliceGameCfg | src/league_client/client.rs:120-126 | the loop replaces the first `Game.cfg` entry by the carried one and stops |
| Client.ReplaceFirst | src/league_client/client.rs:120-126 | splicing keeps the length, takes every entry from the old list or the new entry, and changes nothing when no entry has the name |
| Client.ReplaceFirstChangesOneEntry | src/league_client/client.rs:120-126 | splicing keeps the length and changes only the first entry with the name, or nothing when there is none |
| Client.ReplaceFirstWithOwnEntry | src/league_client/client.rs:120-126 | splicing a document's own first `Game.cfg` into it gives the document back |
| Client.ReplaceFirstIdempotent | src/league_client/client.rs:120-126 | splicing the same entry twice is splicing it once |
| Client.Backup | src/league_client/client.rs:80-89 | a failed backup changes nothing, and with no live file it does nothing |
| Client.BackupCopiesLive | src/league_client/client.rs:84-86 | from a regular live file, the backup becomes a copy of it and nothing else changes |
| Client.BackupFollowsLink | src/league_client/client.rs:84 | while the live path is a link, the backup is overwritten with the linked slot's content |
| Client.Restore | src/league_client/client.rs:91-101 | when the live path is not a link, restoring succeeds and changes nothing |
| Client.RestoreWontPanic | src/league_client/client.rs:110-118 | restoring cannot panic when the live path is not a link or no backup exists |
| Client.Reinstate | src/league_client/client.rs:133-134 | the last step succeeds exactly when a backup exists (unless the live path is a directory), and then the backup's entry is at the live path and the backup path is gone |
| Client.RestoreNoGameCfg | src/league_client/client.rs:110-134 | with a backup and a linked document without `Game.cfg`, the backup moves back unchanged onto the live path |
| Client.RestoreWithoutBackup | src/league_client/client.rs:103-108 | without a backup, the link is replaced by a copy of the file it points to |
| Client.ReinstateMovesBackup | src/league_client/client.rs:133-134 | the last step removes the link and moves the backup onto the live path |
| Client.RestoreCarriesGameCfg | src/league_client/client.rs:110-134 | with a backup, the linked document's first `Game.cfg` replaces the backup's first one, and that document takes the live path; the backup path is gone |
| Client.RestoreEndsInRegularFile | src/league_client/client.rs:91-137 | after a successful restore from a link, the live path is a regular file and no backup is left |
| Client.RestoreOkKeepsNoPanic | src/league_client/client.rs:110-118 | after a successful restore, a second restore cannot panic |
| Client.RestoreSettles | src/league_client/client.rs:95-101 | restoring twice is restoring once |
| Client.ConfigCreated | src/league_client/client.rs:70-78 | a failed restore is what `create_config` returns, unchanged |
| Client.CreateConfigMakesDirectory | src/league_client/client.rs:74-75 | creating a slot makes a directory at the slot path, and the copy onto it fails unreported |
| Client.Prepared | src/league_client/client.rs:147-149 | an existing slot is left as the restore left it |
| Client.Load | src/league_client/client.rs:139-162 | a load succeeds exactly when its restore and its backup succeed; a failed restore is returned unchanged |
| Client.LoadWithoutSlotLosesLive | src/league_client/client.rs:139-162 | loading a champion with no slot yet leaves the slot an empty directory, the live path gone and a backup behind, and reports success |
| Client.LoadWithSlotLinksHard | src/league_client/client.rs:153-159 | loading a champion whose slot is a file backs up the live file and makes the live path another name of the slot, not a link |
| Client.ReplacedInPlace | src/league_client/client.rs:155-159 | removing the live path and linking the slot there is replacing the live entry |
| Client.RestoreAfterLoadDoesNothing | src/league_client/client.rs:95-101 | after such a load, restoring does nothing: the live path is not a link |
| Client.Run | src/league_client/client.rs:229-250 | the loop handles items in order up to and including the first `Shutdown`, and stops exactly when there is one |
| Client.RunStep | src/league_client/client.rs:229-250 | an item other than `Shutdown` is handled, the loop goes on from the tree it leaves with the rest, and it counts one item more |
| Client.RunStops | src/league_client/client.rs:237-240 | a `Shutdown` first ends the loop after that one item and leaves the filesystem unchanged |
| Client.ShutdownStopsProcessing | src/league_client/client.rs:238-241 | whatever follows a `Shutdown` has no effect |
| Client.CommandErrorsIgnored | src/league_client/client.rs:232-237 | a failed backup or restore does not stop the loop |
| Client.Handled | src/league_client/client.rs:231-245 | a `BackupConfig` performs the backup and a `RestoreConfig` the restore, their results dropped; a `Shutdown` and a frame that loads nothing leave the disk alone; a frame that picks a champion loads exactly that champion |
| Client.LeagueClient.constructor | src/league_client/client.rs:43-50 | the configuration folder is the install directory's `Config`, with no region and no local summoner |
| Client.LeagueClient.BackupConfig | src/league_client/client.rs:80-89 | the call's result and new tree are those `Backup` specifies |
| Client.LeagueClient.RestoreConfig | src/league_client/client.rs:91-137 | the call's result and new tree are those `Restore` specifies |
| Client.LeagueClient.CreateConfig | src/league_client/client.rs:70-78 | the call's result and new tree are those `ConfigCreated` specifies |
| Client.LeagueClient.LoadChampionConfig | src/league_client/client.rs:139-162 | the call's result and new tree are those `Load` specifies |
| Client.LeagueClient.UpdateLocalSummoner | src/league_client/client.rs:164-174 | the local summoner is set exactly when the body decodes, and kept otherwise |
| Client.LeagueClient.HandleChampSelectV1Update | src/league_client/websocket.rs:103-125 | the handler fails exactly on undecodable data, and loads the chosen champion, if any |
| Client.LeagueClient.OnMessage | src/league_client/websocket.rs:75-98 | a frame loads the champion `Websocket.OnMessage` picks, or changes nothing |
| Client.LeagueClient.HandleItem | src/league_client/client.rs:230-249 | one item is handled as the loop specifies, and only `Shutdown` stops it |
| Client.LeagueClient.Connect | src/league_client/client.rs:188-257 | the loop's final tree and item count are those `Run` specifies, and a stop is the no-data error |
| Client.LeagueClient.Init | src/league_client/client.rs:258-270 | an undecodable authorization body is a JSON error with nothing changed; otherwise the region is set and the loop runs |
| ClientIntended.SymlinkCheckIntended | src/league_client/util.rs:149-151 | a link check that does not follow the final link sees links |
| ClientIntended.BackupIntended | src/league_client/client.rs:80-89 | a failed intended backup changes nothing |
| ClientIntended.BackupIntendedSkipsLink | src/league_client/client.rs:84 | while a slot is linked in, the intended backup leaves everything as it is |
| ClientIntended.ConfigCreatedIntended | src/league_client/client.rs:70-78 | a failed restore is what the intended `create_config` returns |
| ClientIntended.LoadIntended | src/league_client/client.rs:139-162 | a failed restore is what the intended load returns |
| ClientIntended.LoadIntendedLinksCopy | src/league_client/client.rs:142-159 | the intended load makes the slot and the backup copies of the live file, and links the live path to the slot |
| ClientIntended.RestoreOverIdenticalBackup | src/league_client/client.rs:110-134 | restoring over a backup equal to the linked slot puts that document back at the live path |
| ClientIntended.LoadThenRestoreGivesBack | src/league_client/client.rs:139-162 | loading then restoring gives back the original live document and keeps the new slot |
| ClientIntended.SwapUndone | src/league_client/client.rs:133-134 | undoing the link and the backup leaves only the new slot changed |

## Left out

- HTTP is not modelled: `get`, `post`, `base_get`, `base_post`, TLS, the
  certificate and the basic-auth header. `Init` and `UpdateLocalSummoner`
  take the decoded body as a parameter.
- The websocket handshake and the subscribe message are not modelled. The
  frames the socket delivers, merged with the application's commands, are
  a sequence given to `Connect`, in the order the merge produced.
- `find_client` is not modelled: it spawns WMIC and reads its output.
  `ParseCredentials` takes that output as a string.
- `Util.BuildUri`: URL parsing and query parameters (`Url::parse`,
  `parse_with_params`) are not modelled, only the string the uri is built from.
- The `local_summoner` getter is not modelled; it is a clone.
- `shutdown` is not modelled; it only logs.
- Debug logging and the unreachable `_ => {}` arm of the event loop are not modelled.
- `Fs`: the filesystem is flat. Parent directories are not required, a
  directory's contents are not tracked, link targets are absolute, and
  POSIX semantics stand in for Windows ones.
- `Util.WriteSettingsJson`: the file is opened without truncate. A shorter
  document would leave the old tail behind. The model writes the whole
  document instead, because file content is a document, not bytes.
- JSON floats are not modelled, and neither are serde's error kinds (every
  decode error is `Malformed`) or the text/binary payload distinction
  beyond "decodes or not". JSON integers are unbounded in the model, while
  serde_json reads an integer outside the i64/u64 range as an f64; for such
  a number `to_str` would give float text, where `Structs.ToStr` gives its
  decimal digits.
- `Util.ParseCredentials`: `\d` in the Rust regex crate matches any
  Unicode decimal digit; the model's `\d` matches only ASCII digits. After
  `--app-pid=`, non-ASCII digits are not modelled. After `--app-port=`, the
  source's port string would go on through non-ASCII digits, while the
  model's capture stops at the first of them.
- The `unwrap` calls in `read_settings_json` panic on a missing file.
  Panics are preconditions here (`RestoreWontPanic`, `RunWontPanic`), not
  modelled outcomes.
- `Structs.DecodeTimer`: on a timer object without `phase`, the source
  panics at the `unwrap` of structs.rs:89, where the decoder returns an
  error. The panic is the precondition `Structs.SessionUpdateWontPanic`,
  required of every champion-select Update through
  `Websocket.FrameWontPanic` and `Client.HandleWontPanic`. The condition
  assumes serde_json's default map, which yields keys in sorted order, so
  "myTeam" is read before "timer".
- `src/league_client/mod.rs` and `src/main.rs` are not part of this model:
  the tray menu, the threads, the `ReloadGroups` command and the
  install-directory path join.
- `update_local_summoner` is never called by the source, so at run time the
  local summoner stays `None` and no load ever happens. The model keeps
  the method so that the load path can be stated.

## Findings

| source | as written | input that shows it | evidently intended | confidence | as-written member | corrected member |
|---|---|---|---|---|---|---|
| src/league_client/client.rs:74 | `create_config` calls `ensure_dir` on the slot path itself, so the slot becomes a directory and the copy into it fails unreported; the load then deletes the live file and the hard link from a directory fails | a regular `PersistedSettings.json`, no backup, no `<id>.json`, then a load of champion `id` | make sure the slot's folder exists, so that the slot becomes a copy of the live file | not executed | Client.LoadWithoutSlotLosesLive | ClientIntended.LoadThenRestoreGivesBack |
| src/league_client/client.rs:159 | the live path becomes a hard link to the slot, which `read_link` in `restore_config` (line 95) cannot see, so a restore never puts the backup back | a regular live file and an existing slot file, then a load and a restore | link the slot in with a symbolic link, so that a restore undoes the load | not executed | Client.RestoreAfterLoadDoesNothing | ClientIntended.LoadThenRestoreGivesBack |
| src/league_client/util.rs:149-151 | `is_symlink` asks `fs::metadata`, which follows links, so it never reports a link and `backup_config` overwrites the backup with the linked slot | a live path that is a symbolic link to a slot file, then a backup | ask `fs::symlink_metadata`, so that a linked-in slot is not backed up | not executed | Client.BackupFollowsLink | ClientIntended.BackupIntendedSkipsLink |

=== FILE: client.dfy ===
/**
 * src/league_client/client.rs: the configuration swap engine and the event
 * dispatcher of the League client connection.
 *
 * The client's settings live in `<config>/PersistedSettings.json` (the live
 * file). Loading a champion first restores the state before any earlier
 * load, creates the champion's slot `<config>/<id>.json` when it is
 * missing, backs the live file up to `<config>/PersistedSettings.bak`, and
 * links the slot in place of the live file. Restoring undoes a load whose
 * live file is a symbolic link: it carries the slot's `Game.cfg` entry into
 * the backup and moves the backup back.
 *
 * Every filesystem operation is first given as a function from the old tree
 * to a result and the new tree; the methods of `LeagueClient` perform the
 * same steps through `FileSystem` and are proved to end in that state.
 */
module Client {
  import opened Wrappers
  import opened Decimal
  import opened Structs
  import Websocket
  import opened Fs
  import opened Util

  // ---------------------------------------------------------------------
  // Paths, with the semantics of Rust's PathBuf
  // ---------------------------------------------------------------------

  /** The position of the last '.' in a file name. */
  function LastDot(name: string): (r: Option<nat>)
    ensures r.Some? ==> r.value < |name| && name[r.value] == '.'
    ensures r.Some? ==> forall k :: r.value < k < |name| ==> name[k] != '.'
    ensures r.None? ==> forall k :: 0 <= k < |name| ==> name[k] != '.'
    decreases |name|
  {
    if name == [] then None
    else if name[|name| - 1] == '.' then Some(|name| - 1)
    else LastDot(name[..|name| - 1])
  }

  /** `file_stem`: the name up to its last dot; a name whose only dot leads it is its own stem. */
  function Stem(name: string): (r: string)
    ensures |r| <= |name| && r == name[..|r|]
    ensures |name| > 0 ==> |r| > 0
    ensures LastDot(name).None? ==> r == name
  {
    match LastDot(name)
    case Some(k) => if k == 0 then name else name[..k]
    case None => name
  }

  /** A name made of a stem, one dot and a dot-free extension has that stem. */
  lemma StemOf(stem: string, ext: string)
    requires |stem| > 0
    requires forall k :: 0 <= k < |ext| ==> ext[k] != '.'
    ensures Stem(stem + "." + ext) == stem
  {
    var name := stem + "." + ext;
    assert name[|stem|] == '.';
    var k := LastDot(name).value;
    assert k == |stem| by {
      assert forall j :: |stem| < j < |name| ==> name[j] == ext[j - |stem| - 1];
    }
    assert name[..k] == stem;
  }

  /** A name without a dot is its own stem. */
  lemma StemWithoutDot(name: string)
    requires forall k :: 0 <= k < |name| ==> name[k] != '.'
    ensures Stem(name) == name
  {
    assert LastDot(name).None?;
  }

  /** Whether a path has a final component that is a file name (not `..`). */
  predicate HasFileName(p: Path) {
    |p| > 0 && p[|p| - 1] != ".."
  }

  /** `PathBuf::set_file_name`: replaces the file name, or appends one when there is none. */
  function SetFileName(p: Path, name: string): (r: Path)
    ensures |r| > 0 && r[|r| - 1] == name
    ensures HasFileName(p) ==> |r| == |p| && r[..|r| - 1] == p[..|p| - 1]
    ensures !HasFileName(p) ==> r[..|r| - 1] == p
  {
    if HasFileName(p) then p[..|p| - 1] + [name] else p + [name]
  }

  /** `PathBuf::set_extension`: replaces whatever follows the stem; a path without a file name is kept. */
  function SetExtension(p: Path, ext: string): (r: Path)
    ensures |r| == |p|
    ensures !HasFileName(p) ==> r == p
    ensures HasFileName(p) ==> && r[..|r| - 1] == p[..|p| - 1]
                               && var stem := Stem(p[|p| - 1]);
                                  |stem| <= |r[|r| - 1]| && r[|r| - 1][..|stem|] == stem
    ensures HasFileName(p) && ext == "" ==> r[|r| - 1] == Stem(p[|p| - 1])
  {
    if !HasFileName(p) then p
    else p[..|p| - 1] + [Stem(p[|p| - 1]) + (if ext == "" then "" else "." + ext)]
  }

  /** The live settings file. */
  function LivePath(folder: Path): (p: Path)
    ensures HasFileName(p) && p[..|p| - 1] == folder && p[|p| - 1] == "PersistedSettings.json"
  {
    folder + ["PersistedSettings.json"]
  }

  /** The backup of the live file: the live path with its extension set to `bak`. */
  function BackupPath(folder: Path): (p: Path)
    ensures p == folder + ["PersistedSettings.bak"]
  {
    var live := LivePath(folder);
    StemOf("PersistedSettings", "json");
    assert "PersistedSettings" + "." + "json" == "PersistedSettings.json";
    assert live[|live| - 1] == "PersistedSettings.json" && live[..|live| - 1] == folder;
    assert "PersistedSettings" + ("." + "bak") == "PersistedSettings.bak";
    SetExtension(live, "bak")
  }

  /** A champion's slot: `.dark-binding` renamed to the id, with extension `json`. */
  function SlotPath(folder: Path, id: u32): (p: Path)
    ensures p == folder + [NatToString(id) + ".json"]
  {
    var named := SetFileName(folder + [".dark-binding"], NatToString(id));
    assert named == folder + [NatToString(id)];
    assert named[|named| - 1] == NatToString(id) && named[..|named| - 1] == folder;
    assert HasFileName(named) by {
      assert IsDigit(NatToString(id)[0]);
    }
    StemWithoutDot(NatToString(id));
    assert "." + "json" == ".json";
    SetExtension(named, "json")
  }

  /** The live file and its backup are different paths. */
  lemma LiveIsNotBackup(folder: Path)
    ensures LivePath(folder) != BackupPath(folder)
  {
    assert LivePath(folder)[|folder|] != BackupPath(folder)[|folder|] by {
      assert |"PersistedSettings.json"| != |"PersistedSettings.bak"|;
    }
  }

  /** The live file, the backup and every slot are different paths, and so are the slots of different champions. */
  lemma PathsDistinct(folder: Path, a: u32, b: u32)
    ensures LivePath(folder) != BackupPath(folder)
    ensures SlotPath(folder, a) != LivePath(folder) && SlotPath(folder, a) != BackupPath(folder)
    ensures a != b ==> SlotPath(folder, a) != SlotPath(folder, b)
  {
    var n := |folder|;
    assert LivePath(folder)[n] == "PersistedSettings.json";
    assert BackupPath(folder)[n] == "PersistedSettings.bak";
    assert |"PersistedSettings.json"| != |"PersistedSettings.bak"|;
    var sa := NatToString(a) + ".json";
    assert SlotPath(folder, a)[n] == sa;
    assert IsDigit(sa[0]);
    assert "PersistedSettings.json"[0] == 'P' && "PersistedSettings.bak"[0] == 'P';
    if a != b {
      var sb := NatToString(b) + ".json";
      assert SlotPath(folder, b)[n] == sb;
      // Reading the digits back tells the two texts apart.
      ValueOfNatToString(a);
      ValueOfNatToString(b);
      assert sa[..|NatToString(a)|] == NatToString(a);
      assert sb[..|NatToString(b)|] == NatToString(b);
    }
  }

  // ---------------------------------------------------------------------
  // The Game.cfg entry
  // ---------------------------------------------------------------------

  const GameCfg := "Game.cfg"

  /** `find`: the position of the first entry with the given name. */
  function FirstNamed(files: seq<InnerSettingsFile>, name: string): (r: Option<nat>)
    ensures r.Some? ==> r.value < |files| && files[r.value].name == name
    ensures r.Some? ==> forall j :: 0 <= j < r.value ==> files[j].name != name
    ensures r.None? ==> forall j :: 0 <= j < |files| ==> files[j].name != name
  {
    if files == [] then None
    else if files[0].name == name then Some(0)
    else
      match FirstNamed(files[1..], name)
      case None => None
      case Some(i) => Some(i + 1)
  }

  /** The entries with the first one of the given name replaced; without such an entry, the entries unchanged. */
  function ReplaceFirst(files: seq<InnerSettingsFile>, name: string, entry: InnerSettingsFile): (r: seq<InnerSettingsFile>)
    ensures |r| == |files|
    ensures FirstNamed(files, name).None? ==> r == files
    ensures forall j :: 0 <= j < |r| ==> r[j] == files[j] || r[j] == entry
  {
    match FirstNamed(files, name)
    case None => files
    case Some(i) => files[i := entry]
  }

  /**
   * The loop over `files.iter_mut()` that overwrites the first `Game.cfg`
   * entry and stops.
   */
  method SpliceGameCfg(files: seq<InnerSettingsFile>, cfg: InnerSettingsFile) returns (r: seq<InnerSettingsFile>)
    ensures r == ReplaceFirst(files, GameCfg, cfg)
  {
    r := files;
    var i := 0;
    while i < |r|
      invariant i <= |r| && r == files
      invariant forall j :: 0 <= j < i ==> files[j].name != GameCfg
    {
      if r[i].name == GameCfg {
        r := r[i := cfg];
        return;
      }
      i := i + 1;
    }
  }

  /**
   * Splicing keeps every entry but one: the length is kept, only the first
   * entry of the name may change, and it becomes the new entry.
   */
  lemma ReplaceFirstChangesOneEntry(files: seq<InnerSettingsFile>, name: string, entry: InnerSettingsFile)
    ensures var r := ReplaceFirst(files, name, entry);
            && |r| == |files|
            && (forall j :: 0 <= j < |files| && Some(j) != FirstNamed(files, name) ==> r[j] == files[j])
            && (forall j :: 0 <= j < |files| && files[j].name == name ==> r[FirstNamed(files, name).value] == entry)
  {
  }

  /** Splicing an entry's own first `Game.cfg` back into it changes nothing. */
  lemma ReplaceFirstWithOwnEntry(files: seq<InnerSettingsFile>, name: string)
    requires FirstNamed(files, name).Some?
    ensures ReplaceFirst(files, name, files[FirstNamed(files, name).value]) == files
  {
  }

  /** Splicing the same named entry twice is splicing it once. */
  lemma ReplaceFirstIdempotent(files: seq<InnerSettingsFile>, name: string, entry: InnerSettingsFile)
    requires entry.name == name
    ensures ReplaceFirst(ReplaceFirst(files, name, entry), name, entry) == ReplaceFirst(files, name, entry)
  {
    var once := ReplaceFirst(files, name, entry);
    match FirstNamed(files, name)
    case None =>
    case Some(i) =>
      assert FirstNamed(once, name) == Some(i) by {
        var k := FirstNamed(once, name);
        assert once[i].name == name;
        assert forall j :: 0 <= j < i ==> once[j] == files[j];
      }
  }

  // ---------------------------------------------------------------------
  // backup_config
  // ---------------------------------------------------------------------

  /**
   * `backup_config`: when the live path exists and `is_symlink` says it is
   * not a link, it is copied onto the backup.
   */
  function Backup(t: Tree, folder: Path): (r: (Status, Tree))
    ensures r.0.Err? ==> r.1 == t
    ensures !PathExists(t, LivePath(folder)) ==> r == (Ok(()), t)
  {
    var live := LivePath(folder);
    if !PathExists(t, live) then (Ok(()), t)
    else
      match SymlinkCheck(t, live)
      case Err(e) => (Err(Io(e)), t)
      case Ok(isLink) =>
        if isLink then (Ok(()), t)
        else
          var copied := Copied(t, live, BackupPath(folder));
          (Lift(copied.0), copied.1)
  }

  /** A regular live file is copied onto a missing or regular backup, and nothing else changes. */
  lemma BackupCopiesLive(t: Tree, folder: Path)
    requires LivePath(folder) in t && t[LivePath(folder)].File?
    requires BackupPath(folder) !in t || t[BackupPath(folder)].File?
    ensures Backup(t, folder) == (Ok(()), t[BackupPath(folder) := t[LivePath(folder)]])
  {
    LiveIsNotBackup(folder);
    CopyRegular(t, LivePath(folder), BackupPath(folder));
  }

  /**
   * A live path that is a link to a regular file is backed up all the same:
   * `is_symlink` follows the link and never reports one, so the backup is
   * overwritten with the linked file.
   */
  lemma BackupFollowsLink(t: Tree, folder: Path, q: Path)
    requires LivePath(folder) in t && t[LivePath(folder)] == Symlink(q)
    requires q in t && t[q].File? && q != BackupPath(folder)
    requires BackupPath(folder) !in t || t[BackupPath(folder)].File?
    ensures Backup(t, folder) == (Ok(()), t[BackupPath(folder) := t[q]])
  {
    var live, backup := LivePath(folder), BackupPath(folder);
    LiveIsNotBackup(folder);
    assert Resolve(t, live) == Found(q) by {
      assert Follow(t, live, MaxHops) == Follow(t, q, MaxHops - 1);
    }
    assert Resolve(t, backup) == if backup in t then Found(backup) else Missing(backup);
  }

  // ---------------------------------------------------------------------
  // restore_config
  // ---------------------------------------------------------------------

  /**
   * What restoring needs so that its unwrapped reads succeed: when the live
   * path is a link and a backup exists, the link's target is a regular
   * file, and when that file's document has a `Game.cfg` entry, the backup
   * leads to a regular file too.
   */
  predicate RestoreWontPanic(t: Tree, folder: Path)
    ensures !(LivePath(folder) in t && t[LivePath(folder)].Symlink?) ==> RestoreWontPanic(t, folder)
    ensures !PathExists(t, BackupPath(folder)) ==> RestoreWontPanic(t, folder)
  {
    var live := LivePath(folder);
    var backup := BackupPath(folder);
    live in t && t[live].Symlink? && PathExists(t, backup) ==>
      && Opens(t, t[live].target)
      && (var current := SettingsRead(t, t[live].target);
          current.Ok? && FirstNamed(current.value.files, GameCfg).Some? ==> Opens(t, backup))
  }

  /** The last two steps of a restore: the live path is removed, ignoring failure, and the backup renamed onto it. */
  function Reinstate(t: Tree, folder: Path): (r: (Status, Tree))
    ensures r.0.Ok? ==> && BackupPath(folder) in t && BackupPath(folder) !in r.1
                        && LivePath(folder) in r.1 && r.1[LivePath(folder)] == t[BackupPath(folder)]
    ensures !(LivePath(folder) in t && t[LivePath(folder)].Dir?) ==> (r.0.Ok? <==> BackupPath(folder) in t)
  {
    LiveIsNotBackup(folder);
    var moved := Renamed(Removed(t, LivePath(folder)).1, BackupPath(folder), LivePath(folder));
    (Lift(moved.0), moved.1)
  }

  /**
   * `restore_config`: nothing unless the live path is a link. Without a
   * backup, the link is replaced by a copy of its target. Otherwise the
   * first `Game.cfg` of the link target's document, if any, replaces the
   * first one in the backup's document, and the backup then replaces the
   * link.
   */
  function Restore(t: Tree, folder: Path): (r: (Status, Tree))
    requires RestoreWontPanic(t, folder)
    ensures !(LivePath(folder) in t && t[LivePath(folder)].Symlink?) ==> r == (Ok(()), t)
  {
    var live := LivePath(folder);
    var backup := BackupPath(folder);
    match LinkTarget(t, live)
    case Err(_) => (Ok(()), t)
    case Ok(realLoc) =>
      if !PathExists(t, backup) then
        // Removing a link always succeeds.
        var copied := Copied(Removed(t, live).1, realLoc, live);
        (Lift(copied.0), copied.1)
      else
        match SettingsRead(t, realLoc)
        case Err(e) => (Err(e), t)
        case Ok(current) =>
          match FirstNamed(current.files, GameCfg)
          case None => Reinstate(t, folder)
          case Some(i) =>
            match SettingsRead(t, backup)
            case Err(e) => (Err(e), t)
            case Ok(final) =>
              var written := SettingsWritten(t, backup, final.(files := ReplaceFirst(final.files, GameCfg, current.files[i])));
              if written.0.Err? then written else Reinstate(written.1, folder)
  }

  /** Without a backup, restoring replaces the link by a copy of the file it points to. */
  lemma RestoreWithoutBackup(t: Tree, folder: Path, q: Path)
    requires LivePath(folder) in t && t[LivePath(folder)] == Symlink(q)
    requires q in t && t[q].File? && q != LivePath(folder)
    requires BackupPath(folder) !in t
    ensures RestoreWontPanic(t, folder)
    ensures Restore(t, folder) == (Ok(()), t[LivePath(folder) := t[q]])
  {
    var live := LivePath(folder);
    LiveIsNotBackup(folder);
    assert Resolve(t - {live}, q) == Found(q);
    assert Resolve(t - {live}, live) == Missing(live);
    assert (t - {live})[live := t[q]] == t[live := t[q]];
  }

  /**
   * With a backup and a linked document without a `Game.cfg` entry,
   * restoring skips the merge: the backup moves back unchanged onto the
   * live path.
   */
  lemma RestoreNoGameCfg(t: Tree, folder: Path)
    requires LivePath(folder) in t && t[LivePath(folder)].Symlink?
    requires PathExists(t, BackupPath(folder))
    requires Opens(t, t[LivePath(folder)].target)
    requires var current := SettingsRead(t, t[LivePath(folder)].target);
             current.Ok? && FirstNamed(current.value.files, GameCfg).None?
    ensures RestoreWontPanic(t, folder)
    ensures Restore(t, folder) == (Ok(()), (t - {BackupPath(folder)})[LivePath(folder) := t[BackupPath(folder)]])
  {
    var live, backup := LivePath(folder), BackupPath(folder);
    ReinstateMovesBackup(t, folder);
    RemovedThenReplaced(t, live, backup, t[backup]);
  }

  /** Removing an entry that is then replaced anyway changes nothing; a proof step only. */
  lemma RemovedThenReplaced(t: Tree, live: Path, other: Path, n: Node)
    requires live in t && live != other
    ensures (t - {live} - {other})[live := n] == (t - {other})[live := n]
  {
    assert ((t - {live} - {other})[live := n]).Keys == ((t - {other})[live := n]).Keys;
  }

  /** Reinstating removes the link and moves the backup entry onto the live path. */
  lemma ReinstateMovesBackup(t: Tree, folder: Path)
    requires LivePath(folder) in t && t[LivePath(folder)].Symlink?
    requires BackupPath(folder) in t
    ensures Reinstate(t, folder) == (Ok(()), (t - {LivePath(folder)} - {BackupPath(folder)})[LivePath(folder) := t[BackupPath(folder)]])
  {
    LiveIsNotBackup(folder);
  }

  /**
   * With a backup, restoring carries the linked document's first `Game.cfg`
   * into the backup's document, which then takes the live path; the backup
   * path is gone afterwards.
   */
  lemma RestoreCarriesGameCfg(t: Tree, folder: Path, q: Path, linked: PersistedSettings, saved: PersistedSettings)
    requires LivePath(folder) in t && t[LivePath(folder)] == Symlink(q)
    requires q in t && t[q] == File(Parsed(linked)) && q != BackupPath(folder)
    requires BackupPath(folder) in t && t[BackupPath(folder)] == File(Parsed(saved))
    requires FirstNamed(linked.files, GameCfg).Some?
    ensures RestoreWontPanic(t, folder)
    ensures var cfg := linked.files[FirstNamed(linked.files, GameCfg).value];
            var merged := saved.(files := ReplaceFirst(saved.files, GameCfg, cfg));
            Restore(t, folder) == (Ok(()), (t - {BackupPath(folder)})[LivePath(folder) := File(Parsed(merged))])
  {
    var live, backup := LivePath(folder), BackupPath(folder);
    LiveIsNotBackup(folder);
    assert Resolve(t, q) == Found(q);
    assert Resolve(t, backup) == Found(backup);
    assert SettingsRead(t, q) == Ok(linked);
    assert SettingsRead(t, backup) == Ok(saved);
    var cfg := linked.files[FirstNamed(linked.files, GameCfg).value];
    var merged := saved.(files := ReplaceFirst(saved.files, GameCfg, cfg));
    var written := t[backup := File(Parsed(merged))];
    assert SettingsWritten(t, backup, merged) == (Ok(()), written);
    ReinstateMovesBackup(written, folder);
    assert (written - {live} - {backup})[live := File(Parsed(merged))] == (t - {backup})[live := File(Parsed(merged))];
  }

  /**
   * Recovery after an interrupted load: when the live path is a link and
   * the backup, if any, is a regular file, a successful restore leaves a
   * regular file at the live path and no backup.
   */
  lemma RestoreEndsInRegularFile(t: Tree, folder: Path)
    requires RestoreWontPanic(t, folder)
    requires LivePath(folder) in t && t[LivePath(folder)].Symlink?
    requires BackupPath(folder) !in t || t[BackupPath(folder)].File?
    requires Restore(t, folder).0.Ok?
    ensures LivePath(folder) in Restore(t, folder).1 && Restore(t, folder).1[LivePath(folder)].File?
    ensures BackupPath(folder) !in Restore(t, folder).1
  {
    var live, backup := LivePath(folder), BackupPath(folder);
    LiveIsNotBackup(folder);
    assert Resolve(t - {live}, live) == Missing(live);
    if backup in t {
      assert Resolve(t, backup) == Found(backup);
    }
  }

  /** After a successful restore, a second restore cannot panic either. */
  lemma RestoreOkKeepsNoPanic(t: Tree, folder: Path)
    requires RestoreWontPanic(t, folder)
    ensures Restore(t, folder).0.Ok? ==> RestoreWontPanic(Restore(t, folder).1, folder)
  {
    LiveIsNotBackup(folder);
  }

  /**
   * Restoring twice is restoring once, provided the backup is not itself a
   * link (a link moved onto the live path would be restored again).
   */
  lemma RestoreSettles(t: Tree, folder: Path)
    requires RestoreWontPanic(t, folder)
    requires Restore(t, folder).0.Ok?
    requires !(BackupPath(folder) in t && t[BackupPath(folder)].Symlink?)
    ensures RestoreWontPanic(Restore(t, folder).1, folder)
    ensures Restore(Restore(t, folder).1, folder) == (Ok(()), Restore(t, folder).1)
  {
    LiveIsNotBackup(folder);
    RestoreOkKeepsNoPanic(t, folder);
  }

  // ---------------------------------------------------------------------
  // create_config and load_champion_config
  // ---------------------------------------------------------------------

  /**
   * `create_config`: restore, make sure a directory exists at the slot path
   * itself, then copy the live file onto the slot, ignoring the copy's
   * result.
   */
  function ConfigCreated(t: Tree, folder: Path, configPath: Path): (r: (Status, Tree))
    requires RestoreWontPanic(t, folder)
    ensures Restore(t, folder).0.Err? ==> r == Restore(t, folder)
  {
    var restored := Restore(t, folder);
    if restored.0.Err? then restored
    else
      var made := DirEnsured(restored.1, configPath);
      if made.0.Err? then (Lift(made.0), made.1)
      else (Ok(()), Copied(made.1, LivePath(folder), configPath).1)
  }

  /**
   * When nothing needs restoring and the slot is free, creating a
   * configuration leaves a directory at the slot: the copy that follows can
   * never write into it.
   */
  lemma CreateConfigMakesDirectory(t: Tree, folder: Path, configPath: Path)
    requires !(LivePath(folder) in t && t[LivePath(folder)].Symlink?)
    requires configPath !in t
    ensures ConfigCreated(t, folder, configPath) == (Ok(()), t[configPath := Dir])
  {
    var t1 := t[configPath := Dir];
    assert DirEnsured(t, configPath) == (Ok(()), t1);
    assert LivePath(folder) != configPath ==> Resolve(t1, LivePath(folder)) == Resolve(t, LivePath(folder));
    assert Resolve(t1, configPath) == Found(configPath);
  }

  /** The filesystem once `load_champion_config` has restored and, for a champion without a slot, created one. */
  function Prepared(t: Tree, folder: Path, id: u32): (p: Tree)
    requires RestoreWontPanic(t, folder) && Restore(t, folder).0.Ok?
    ensures PathExists(Restore(t, folder).1, SlotPath(folder, id)) ==> p == Restore(t, folder).1
  {
    var t1 := Restore(t, folder).1;
    if PathExists(t1, SlotPath(folder, id)) then t1
    else
      RestoreOkKeepsNoPanic(t, folder);
      ConfigCreated(t1, folder, SlotPath(folder, id)).1
  }

  /**
   * `load_champion_config`: restore (its error is returned), prepare the
   * slot (errors ignored), back up (its error is returned), remove the live
   * path if it exists and hard-link the slot in its place (both results
   * ignored).
   */
  function Load(t: Tree, folder: Path, id: u32): (r: (Status, Tree))
    requires RestoreWontPanic(t, folder)
    ensures r.0.Ok? <==> Restore(t, folder).0.Ok? && Backup(Prepared(t, folder, id), folder).0.Ok?
    ensures Restore(t, folder).0.Err? ==> r == Restore(t, folder)
  {
    var restored := Restore(t, folder);
    if restored.0.Err? then restored
    else
      var backedUp := Backup(Prepared(t, folder, id), folder);
      if backedUp.0.Err? then backedUp
      else
        var live := LivePath(folder);
        var t3 := if PathExists(backedUp.1, live) then Removed(backedUp.1, live).1 else backedUp.1;
        (Ok(()), HardLinked(t3, SlotPath(folder, id), live).1)
  }

  /**
   * Loading a champion that has no slot yet, from a regular live file:
   * the live file is backed up and then deleted, the slot is left as an
   * empty directory, and the hard link to it fails unreported.
   */
  lemma LoadWithoutSlotLosesLive(t: Tree, folder: Path, id: u32)
    requires LivePath(folder) in t && t[LivePath(folder)].File?
    requires BackupPath(folder) !in t || t[BackupPath(folder)].File?
    requires SlotPath(folder, id) !in t
    ensures Load(t, folder, id)
         == (Ok(()), (t[SlotPath(folder, id) := Dir][BackupPath(folder) := t[LivePath(folder)]]) - {LivePath(folder)})
  {
    var live, backup, slot := LivePath(folder), BackupPath(folder), SlotPath(folder, id);
    PathsDistinct(folder, id, id);
    CreateConfigMakesDirectory(t, folder, slot);
    var t2 := t[slot := Dir];
    assert Prepared(t, folder, id) == t2;
    BackupCopiesLive(t2, folder);
    var t3 := t2[backup := t[live]];
    assert PathExists(t3, live);
    assert HardLinked(t3 - {live}, slot, live).0.Err?;
  }

  /**
   * Loading a champion whose slot is a regular file, from a regular live
   * file: the live file is backed up, and the live path becomes another
   * name of the slot's file, not a symbolic link.
   */
  lemma LoadWithSlotLinksHard(t: Tree, folder: Path, id: u32)
    requires LivePath(folder) in t && t[LivePath(folder)].File?
    requires BackupPath(folder) !in t || t[BackupPath(folder)].File?
    requires SlotPath(folder, id) in t && t[SlotPath(folder, id)].File?
    ensures Load(t, folder, id)
         == (Ok(()), t[BackupPath(folder) := t[LivePath(folder)]][LivePath(folder) := t[SlotPath(folder, id)]])
  {
    var live, backup, slot := LivePath(folder), BackupPath(folder), SlotPath(folder, id);
    PathsDistinct(folder, id, id);
    assert Prepared(t, folder, id) == t;
    BackupCopiesLive(t, folder);
    var b := t[backup := t[live]];
    assert PathExists(b, live) && Removed(b, live).1 == b - {live};
    assert HardLinked(b - {live}, slot, live).1 == (b - {live})[live := t[slot]];
    ReplacedInPlace(b, live, t[slot]);
  }

  /** Removing an entry and adding it back with another node is replacing it. */
  lemma ReplacedInPlace(t: Tree, p: Path, n: Node)
    requires p in t
    ensures (t - {p})[p := n] == t[p := n]
  {
    assert ((t - {p})[p := n]).Keys == t[p := n].Keys;
  }

  /** After a load from a regular live file, restoring does nothing: the live file is not a link. */
  lemma RestoreAfterLoadDoesNothing(t: Tree, folder: Path, id: u32)
    requires LivePath(folder) in t && t[LivePath(folder)].File?
    requires BackupPath(folder) !in t || t[BackupPath(folder)].File?
    requires SlotPath(folder, id) in t && t[SlotPath(folder, id)].File?
    ensures RestoreWontPanic(Load(t, folder, id).1, folder)
    ensures Restore(Load(t, folder, id).1, folder) == (Ok(()), Load(t, folder, id).1)
  {
    LoadWithSlotLinksHard(t, folder, id);
  }

  // ---------------------------------------------------------------------
  // The event loop of connect
  // ---------------------------------------------------------------------

  /** `LeagueClientFn`: a command from the application, or a frame from the websocket. */
  datatype ClientFn = BackupConfig | RestoreConfig | Shutdown | Message(frame: Websocket.Frame)

  /** What handling one item needs so that it cannot panic. */
  predicate HandleWontPanic(t: Tree, folder: Path, local: Option<LocalSummoner>, item: ClientFn) {
    match item
    case RestoreConfig => RestoreWontPanic(t, folder)
    case Message(f) =>
      && Websocket.FrameWontPanic(f)
      && (Websocket.OnMessage(f, local).Some? ==> RestoreWontPanic(t, folder))
    case _ => true
  }

  /** The filesystem after handling one item; every result is dropped. */
  function Handled(t: Tree, folder: Path, local: Option<LocalSummoner>, item: ClientFn): (r: Tree)
    requires HandleWontPanic(t, folder, local, item)
    ensures item.BackupConfig? ==> r == Backup(t, folder).1
    ensures item.RestoreConfig? ==> r == Restore(t, folder).1
    ensures item.Shutdown? ==> r == t
    ensures item.Message? && Websocket.OnMessage(item.frame, local).None? ==> r == t
    ensures item.Message? && Websocket.OnMessage(item.frame, local).Some? ==>
              r == Load(t, folder, Websocket.OnMessage(item.frame, local).value).1
  {
    match item
    case BackupConfig => Backup(t, folder).1
    case RestoreConfig => Restore(t, folder).1
    case Shutdown => t
    case Message(f) =>
      match Websocket.OnMessage(f, local)
      case Some(id) => Load(t, folder, id).1
      case None => t
  }

  /** No item up to the first `Shutdown` panics. */
  predicate RunWontPanic(t: Tree, folder: Path, local: Option<LocalSummoner>, items: seq<ClientFn>)
    decreases |items|
  {
    items != [] ==>
      && HandleWontPanic(t, folder, local, items[0])
      && (!items[0].Shutdown? ==> RunWontPanic(Handled(t, folder, local, items[0]), folder, local, items[1..]))
  }

  /** Where the loop stands: the filesystem, how many items it took, and whether a `Shutdown` ended it. */
  datatype Progress = Progress(tree: Tree, handled: nat, stopped: bool)

  /** The filesystem after the loop: each item up to the first `Shutdown` handled in turn. */
  function RunTree(t: Tree, folder: Path, local: Option<LocalSummoner>, items: seq<ClientFn>): Tree
    requires RunWontPanic(t, folder, local, items)
    decreases |items|
  {
    if items == [] || items[0].Shutdown? then t
    else RunTree(Handled(t, folder, local, items[0]), folder, local, items[1..])
  }

  /**
   * `for_each` over the items: each is handled in turn; a `Shutdown` is
   * taken and ends the loop, and nothing after it is handled.
   */
  function Run(t: Tree, folder: Path, local: Option<LocalSummoner>, items: seq<ClientFn>): (p: Progress)
    requires RunWontPanic(t, folder, local, items)
    ensures p.handled <= |items|
    ensures p.stopped <==> Shutdown in items
    ensures p.stopped ==> 0 < p.handled && items[p.handled - 1] == Shutdown && Shutdown !in items[..p.handled - 1]
    ensures !p.stopped ==> p.handled == |items|
  {
    TakenUpToShutdown(items);
    Progress(RunTree(t, folder, local, items), Taken(items), Shutdown in items)
  }

  /** One step of the loop: an item other than `Shutdown` is handled and the loop goes on with the rest. */
  lemma RunStep(t: Tree, folder: Path, local: Option<LocalSummoner>, items: seq<ClientFn>)
    requires items != [] && !items[0].Shutdown?
    requires RunWontPanic(t, folder, local, items)
    ensures RunWontPanic(Handled(t, folder, local, items[0]), folder, local, items[1..])
    ensures var p := Run(Handled(t, folder, local, items[0]), folder, local, items[1..]);
            Run(t, folder, local, items) == Progress(p.tree, p.handled + 1, p.stopped)
  {
    TakenUpToShutdown(items);
  }

  /** A `Shutdown` first is taken alone and leaves the filesystem as it was. */
  lemma RunStops(t: Tree, folder: Path, local: Option<LocalSummoner>, items: seq<ClientFn>)
    requires items != [] && items[0].Shutdown?
    requires RunWontPanic(t, folder, local, items)
    ensures Run(t, folder, local, items) == Progress(t, 1, true)
  {
    assert items[0] in items;
  }

  /** How many items the loop takes: up to and including the first `Shutdown`, or all of them. */
  function Taken(items: seq<ClientFn>): nat
    decreases |items|
  {
    if items == [] then 0
    else if items[0].Shutdown? then 1
    else Taken(items[1..]) + 1
  }

  /** The count stops exactly after the first `Shutdown`; a proof step for `Run`. */
  lemma {:induction false} TakenUpToShutdown(items: seq<ClientFn>)
    ensures Taken(items) <= |items|
    ensures Shutdown in items ==> 0 < Taken(items) && items[Taken(items) - 1] == Shutdown
                                  && Shutdown !in items[..Taken(items) - 1]
    ensures Shutdown !in items ==> Taken(items) == |items|
    ensures items != [] && !items[0].Shutdown? ==>
              (Shutdown in items <==> Shutdown in items[1..]) && Taken(items) == Taken(items[1..]) + 1
    decreases |items|
  {
    if items != [] && !items[0].Shutdown? {
      TakenUpToShutdown(items[1..]);
      assert items == [items[0]] + items[1..];
      var k := Taken(items[1..]);
      if Shutdown in items[1..] {
        assert items[..k] == [items[0]] + items[1..][..k - 1];
      }
    }
  }

  /** Whatever follows a `Shutdown` is never looked at. */
  lemma {:induction false} ShutdownStopsProcessing(t: Tree, folder: Path, local: Option<LocalSummoner>, items: seq<ClientFn>, later: seq<ClientFn>)
    requires Shutdown in items
    requires RunWontPanic(t, folder, local, items)
    ensures RunWontPanic(t, folder, local, items + later)
    ensures Run(t, folder, local, items + later) == Run(t, folder, local, items)
    decreases |items|
  {
    assert (items + later)[0] == items[0];
    if items[0].Shutdown? {
      RunStops(t, folder, local, items);
      RunStops(t, folder, local, items + later);
    } else {
      assert (items + later)[1..] == items[1..] + later;
      ShutdownStopsProcessing(Handled(t, folder, local, items[0]), folder, local, items[1..], later);
      RunStep(t, folder, local, items);
      RunStep(t, folder, local, items + later);
    }
  }

  /** A failed backup or restore does not stop the loop: the next item is handled all the same. */
  lemma CommandErrorsIgnored(t: Tree, folder: Path, local: Option<LocalSummoner>, item: ClientFn, rest: seq<ClientFn>)
    requires item == BackupConfig || item == RestoreConfig
    requires RunWontPanic(t, folder, local, [item] + rest)
    ensures RunWontPanic(Handled(t, folder, local, item), folder, local, rest)
    ensures var p := Run(Handled(t, folder, local, item), folder, local, rest);
            Run(t, folder, local, [item] + rest) == Progress(p.tree, p.handled + 1, p.stopped)
  {
    assert ([item] + rest)[1..] == rest;
    RunStep(t, folder, local, [item] + rest);
  }

  /**
   * Where a loop from `t0` stands after `handled` items, with tree `t`: if it
   * has not stopped, the loop resumed from `t` on the rest ends as the whole
   * loop does; if it has, the whole loop ends here.
   */
  predicate Resumes(t0: Tree, t: Tree, folder: Path, local: Option<LocalSummoner>, items: seq<ClientFn>, handled: nat, stopped: bool)
    requires RunWontPanic(t0, folder, local, items)
  {
    && handled <= |items|
    && (!stopped ==>
          && RunWontPanic(t, folder, local, items[handled..])
          && var p := Run(t, folder, local, items[handled..]);
             Run(t0, folder, local, items) == Progress(p.tree, p.handled + handled, p.stopped))
    && (stopped ==> Run(t0, folder, local, items) == Progress(t, handled, true))
  }

  /** The loop starts with nothing handled; a proof step for `Connect`. */
  lemma ResumesAtStart(t0: Tree, folder: Path, local: Option<LocalSummoner>, items: seq<ClientFn>)
    requires RunWontPanic(t0, folder, local, items)
    ensures Resumes(t0, t0, folder, local, items, 0, false)
  {
    assert items[0..] == items;
  }

  /** Handling the next item keeps the loop where `Run` says; a proof step for `Connect`. */
  lemma ResumesAfterItem(t0: Tree, t: Tree, folder: Path, local: Option<LocalSummoner>, items: seq<ClientFn>, handled: nat)
    requires RunWontPanic(t0, folder, local, items)
    requires handled < |items|
    requires Resumes(t0, t, folder, local, items, handled, false)
    ensures HandleWontPanic(t, folder, local, items[handled])
    ensures Resumes(t0, Handled(t, folder, local, items[handled]), folder, local, items, handled + 1, items[handled].Shutdown?)
  {
    assert items[handled..][0] == items[handled];
    assert items[handled..][1..] == items[handled + 1..];
    if items[handled].Shutdown? {
      RunStops(t, folder, local, items[handled..]);
    } else {
      RunStep(t, folder, local, items[handled..]);
    }
  }

  /** A loop that ran out of items or stopped ends as `Run` says; a proof step for `Connect`. */
  lemma ResumesAtEnd(t0: Tree, t: Tree, folder: Path, local: Option<LocalSummoner>, items: seq<ClientFn>, handled: nat, stopped: bool)
    requires RunWontPanic(t0, folder, local, items)
    requires Resumes(t0, t, folder, local, items, handled, stopped)
    requires handled == |items| || stopped
    ensures Run(t0, folder, local, items) == Progress(t, handled, stopped)
  {
    if !stopped {
      assert items[handled..] == [];
    }
  }

  // ---------------------------------------------------------------------
  // LeagueClient
  // ---------------------------------------------------------------------

  /** The connection to a running League client and the configuration it swaps. */
  class LeagueClient {
    const credentials: Credentials
    const configFolder: Path
    /** The filesystem holding the configuration folder. */
    const disk: FileSystem
    var region: Option<string>
    var localSummoner: Option<LocalSummoner>

    /** `new`: the configuration folder is `Config` inside the install directory. */
    constructor (credentials: Credentials, installDirectory: Path, disk: FileSystem)
      ensures this.credentials == credentials && this.disk == disk
      ensures configFolder == installDirectory + ["Config"]
      ensures region == None && localSummoner == None
    {
      this.credentials := credentials;
      this.configFolder := installDirectory + ["Config"];
      this.disk := disk;
      region := None;
      localSummoner := None;
    }

    method BackupConfig() returns (r: Status)
      modifies disk
      ensures (r, disk.tree) == Backup(old(disk.tree), configFolder)
    {
      var persistedSettings := LivePath(configFolder);
      var backup := BackupPath(configFolder);
      var present := disk.Exists(persistedSettings);
      if present {
        var link := IsSymlink(disk, persistedSettings);
        // The path exists, so asking whether it is a link cannot fail.
        assert link.Ok?;
        if !link.value {
          var copied := disk.Copy(persistedSettings, backup);
          if copied.Err? {
            return Err(Io(copied.error));
          }
        }
      }
      return Ok(());
    }

    method RestoreConfig() returns (r: Status)
      requires RestoreWontPanic(disk.tree, configFolder)
      modifies disk
      ensures (r, disk.tree) == Restore(old(disk.tree), configFolder)
    {
      var currentSettingsLoc := LivePath(configFolder);
      var backupLoc := BackupPath(configFolder);
      var link := disk.ReadLink(currentSettingsLoc);
      if link.Err? {
        // Not a link made by a load: nothing to undo.
        return Ok(());
      }
      var realLoc := link.value;
      var backupPresent := disk.Exists(backupLoc);
      if !backupPresent {
        var removed := disk.RemoveFile(currentSettingsLoc);
        assert removed.Ok?;
        var copied := disk.Copy(realLoc, currentSettingsLoc);
        return Lift(copied);
      }
      var currentSettings := ReadSettingsJson(disk, realLoc);
      if currentSettings.Err? {
        return Err(currentSettings.error);
      }
      var nextGameCfg := FirstNamed(currentSettings.value.files, GameCfg);
      if nextGameCfg.Some? {
        var finalSettings := ReadSettingsJson(disk, backupLoc);
        if finalSettings.Err? {
          return Err(finalSettings.error);
        }
        var files := SpliceGameCfg(finalSettings.value.files, currentSettings.value.files[nextGameCfg.value]);
        var written := WriteSettingsJson(disk, backupLoc, finalSettings.value.(files := files));
        if written.Err? {
          return written;
        }
      }
      var _ := disk.RemoveFile(currentSettingsLoc);
      var renamed := disk.Rename(backupLoc, currentSettingsLoc);
      return Lift(renamed);
    }

    method CreateConfig(configPath: Path) returns (r: Status)
      requires RestoreWontPanic(disk.tree, configFolder)
      modifies disk
      ensures (r, disk.tree) == ConfigCreated(old(disk.tree), configFolder, configPath)
    {
      var restored := RestoreConfig();
      if restored.Err? {
        return restored;
      }
      var persistedSettingsLoc := LivePath(configFolder);
      var made := EnsureDir(disk, configPath);
      if made.Err? {
        return Err(Io(made.error));
      }
      var _ := disk.Copy(persistedSettingsLoc, configPath);
      return Ok(());
    }

    method LoadChampionConfig(championId: u32) returns (r: Status)
      requires RestoreWontPanic(disk.tree, configFolder)
      modifies disk
      ensures (r, disk.tree) == Load(old(disk.tree), configFolder, championId)
    {
      RestoreOkKeepsNoPanic(disk.tree, configFolder);
      var restored := RestoreConfig();
      if restored.Err? {
        return restored;
      }
      var cfgFileLoc := configFolder + [".dark-binding"];
      cfgFileLoc := SetFileName(cfgFileLoc, NatToString(championId));
      cfgFileLoc := SetExtension(cfgFileLoc, "json");
      var slotPresent := disk.Exists(cfgFileLoc);
      if !slotPresent {
        var _ := CreateConfig(cfgFileLoc);
      }
      var persistedSettingsLoc := LivePath(configFolder);
      var backedUp := BackupConfig();
      if backedUp.Err? {
        return backedUp;
      }
      var livePresent := disk.Exists(persistedSettingsLoc);
      if livePresent {
        var _ := disk.RemoveFile(persistedSettingsLoc);
      }
      var _ := disk.HardLink(cfgFileLoc, persistedSettingsLoc);
      return Ok(());
    }

    /**
     * `update_local_summoner`, given the body of the current-summoner
     * request: a body that decodes becomes the local summoner.
     */
    method UpdateLocalSummoner(body: Json) returns (r: Status)
      modifies this`localSummoner
      ensures r.Ok? <==> DecodeLocalSummoner(body).Ok?
      ensures localSummoner == if r.Ok? then Some(DecodeLocalSummoner(body).value) else old(localSummoner)
    {
      var decoded := DecodeLocalSummoner(body);
      if decoded.Err? {
        return Err(JsonSerde);
      }
      localSummoner := Some(decoded.value);
      return Ok(());
    }

    /**
     * `handle_champ_select_v1_update`: a session update in the finalization
     * phase loads the champion of the first team member with the local
     * summoner's id; the load's own result is dropped.
     */
    method HandleChampSelectV1Update(data: Json) returns (r: Status)
      requires SessionUpdateWontPanic(data)
      requires var choice := Websocket.HandleChampSelectUpdate(data, localSummoner);
               choice.Ok? && choice.value.Some? ==> RestoreWontPanic(disk.tree, configFolder)
      modifies disk
      ensures r.Err? <==> DecodeSessionUpdate(data).Err?
      ensures disk.tree == match Websocket.HandleChampSelectUpdate(data, localSummoner)
                           case Ok(Some(id)) => Load(old(disk.tree), configFolder, id).1
                           case _ => old(disk.tree)
    {
      var decoded := DecodeSessionUpdate(data);
      if decoded.Err? {
        return Err(JsonSerde);
      }
      var update := decoded.value;
      if update.timer.phase == Finalization && localSummoner.Some? {
        var member := Websocket.FirstMatch(update.myTeam, localSummoner.value.summonerId);
        if member.Some? {
          var _ := LoadChampionConfig(update.myTeam[member.value].championId);
        }
      }
      return Ok(());
    }

    /**
     * `on_message`: an `Update` event of the champion-select session is
     * passed on; everything else, including frames that do not decode, is
     * dropped.
     */
    method OnMessage(f: Websocket.Frame)
      requires HandleWontPanic(disk.tree, configFolder, localSummoner, Message(f))
      modifies disk
      ensures disk.tree == Handled(old(disk.tree), configFolder, localSummoner, Message(f))
    {
      Websocket.OnMessageDispatch(f, localSummoner);
      var base := Websocket.BaseOnMessage(f);
      if base.Ok? && base.value.Some? {
        var event := base.value.value;
        if event.uri == Websocket.ChampSelectSessionUri && event.eventType.Update? {
          var _ := HandleChampSelectV1Update(event.data);
        }
      }
    }

    /**
     * The closure `connect` runs on each item: backups and restores have
     * their errors dropped, frames go to `OnMessage`, and `Shutdown` (which
     * only logs) asks the loop to stop.
     */
    method HandleItem(item: ClientFn) returns (stop: bool)
      requires HandleWontPanic(disk.tree, configFolder, localSummoner, item)
      modifies disk
      ensures stop <==> item.Shutdown?
      ensures disk.tree == Handled(old(disk.tree), configFolder, localSummoner, item)
    {
      stop := false;
      match item
      case BackupConfig =>
        var _ := BackupConfig();
      case RestoreConfig =>
        var _ := RestoreConfig();
      case Shutdown =>
        stop := true;
      case Message(f) =>
        OnMessage(f);
    }

    /**
     * The loop of `connect`, over the items the socket and the application
     * deliver, in the order they arrive: each is handled in turn, and a
     * `Shutdown` ends the loop with the websocket's no-data error, which
     * `connect` returns.
     */
    method Connect(items: seq<ClientFn>) returns (r: Status, handled: nat)
      requires RunWontPanic(disk.tree, configFolder, localSummoner, items)
      modifies disk
      ensures Run(old(disk.tree), configFolder, localSummoner, items) == Progress(disk.tree, handled, r.Err?)
      ensures r.Err? ==> r.error == NoDataAvailable
    {
      handled := 0;
      var stopped := false;
      ResumesAtStart(disk.tree, configFolder, localSummoner, items);
      while handled < |items| && !stopped
        invariant Resumes(old(disk.tree), disk.tree, configFolder, localSummoner, items, handled, stopped)
        decreases |items| - handled
      {
        ResumesAfterItem(old(disk.tree), disk.tree, configFolder, localSummoner, items, handled);
        stopped := HandleItem(items[handled]);
        handled := handled + 1;
      }
      ResumesAtEnd(old(disk.tree), disk.tree, configFolder, localSummoner, items, handled, stopped);
      r := if stopped then Err(NoDataAvailable) else Ok(());
    }

    /**
     * `init`, given the body of the authorization request: its platform id
     * becomes the region and the event loop runs; a body that does not
     * decode ends `init` before connecting.
     */
    method Init(rso: Json, items: seq<ClientFn>) returns (r: Status)
      requires RunWontPanic(disk.tree, configFolder, localSummoner, items)
      modifies this`region, disk
      ensures DecodeRso(rso).Err? ==> r == Err(JsonSerde) && region == old(region) && disk.tree == old(disk.tree)
      ensures DecodeRso(rso).Ok? ==> region == Some(DecodeRso(rso).value.currentPlatformId)
      ensures DecodeRso(rso).Ok? ==> disk.tree == Run(old(disk.tree), configFolder, localSummoner, items).tree
      ensures DecodeRso(rso).Ok? ==> (r.Err? <==> Shutdown in items)
    {
      var auth := DecodeRso(rso);
      if auth.Err? {
        return Err(JsonSerde);
      }
      region := Some(auth.value.currentPlatformId);
      var handled;
      r, handled := Connect(items);
    }
  }
}

=== FILE: client_intended.dfy ===
/**
 * The configuration swap with the three faults of module Client corrected,
 * taking the source at its word: `restore_config` recognises a loaded live
 * file by `read_link` (src/league_client/client.rs:95) and calls it "one of
 * our hard links" (line 98), so the live path becomes a symbolic link to
 * the slot, which `read_link` sees; the slot is created inside the
 * configuration folder rather than as a directory at the slot path; and
 * `is_symlink` reports a link at the live path, so the backup is skipped
 * while a slot is linked in.
 */
module ClientIntended {
  import opened Wrappers
  import opened Decimal
  import opened Structs
  import opened Fs
  import opened Util
  import opened Client

  /** `is_symlink` asking `fs::symlink_metadata`, which does not follow the final link. */
  function SymlinkCheckIntended(t: Tree, p: Path): (r: Result<bool, IoError>)
    ensures r.Ok? <==> p in t
    ensures r.Ok? ==> (r.value <==> t[p].Symlink?)
  {
    if p !in t then Err(NotFound) else Ok(t[p].Symlink?)
  }

  /** `backup_config` with the link check that sees links. */
  function BackupIntended(t: Tree, folder: Path): (r: (Status, Tree))
    ensures r.0.Err? ==> r.1 == t
  {
    var live := LivePath(folder);
    if !PathExists(t, live) then (Ok(()), t)
    else
      match SymlinkCheckIntended(t, live)
      case Err(e) => (Err(Io(e)), t)
      case Ok(isLink) =>
        if isLink then (Ok(()), t)
        else
          var copied := Copied(t, live, BackupPath(folder));
          (Lift(copied.0), copied.1)
  }

  /** While a champion's slot is linked in, backing up leaves everything as it is. */
  lemma BackupIntendedSkipsLink(t: Tree, folder: Path)
    requires LivePath(folder) in t && t[LivePath(folder)].Symlink?
    ensures BackupIntended(t, folder) == (Ok(()), t)
  {
  }

  /** The folder a path is in. */
  function Parent(p: Path): Path
    requires |p| > 0
  {
    p[..|p| - 1]
  }

  /** `create_config` making sure the slot's folder exists, so that the copy lands in a file. */
  function ConfigCreatedIntended(t: Tree, folder: Path, configPath: Path): (r: (Status, Tree))
    requires RestoreWontPanic(t, folder) && |configPath| > 0
    ensures Restore(t, folder).0.Err? ==> r == Restore(t, folder)
  {
    var restored := Restore(t, folder);
    if restored.0.Err? then restored
    else
      var made := DirEnsured(restored.1, Parent(configPath));
      if made.0.Err? then (Lift(made.0), made.1)
      else (Ok(()), Copied(made.1, LivePath(folder), configPath).1)
  }

  /** `load_champion_config` linking the slot in with a symbolic link, so that a later restore undoes it. */
  function LoadIntended(t: Tree, folder: Path, id: u32): (r: (Status, Tree))
    requires RestoreWontPanic(t, folder)
    ensures Restore(t, folder).0.Err? ==> r == Restore(t, folder)
  {
    var restored := Restore(t, folder);
    if restored.0.Err? then restored
    else
      var t1 := restored.1;
      var slot := SlotPath(folder, id);
      var t2 := if PathExists(t1, slot) then t1
                else (RestoreOkKeepsNoPanic(t, folder); ConfigCreatedIntended(t1, folder, slot).1);
      var backedUp := BackupIntended(t2, folder);
      if backedUp.0.Err? then backedUp
      else
        var live := LivePath(folder);
        var t3 := if PathExists(backedUp.1, live) then Removed(backedUp.1, live).1 else backedUp.1;
        (Ok(()), SymLinked(t3, slot, live).1)
  }

  /**
   * Loading a champion that has no slot yet, from a regular live file: the
   * slot becomes a copy of the live file, so does the backup, and the live
   * path becomes a link to the slot.
   */
  lemma LoadIntendedLinksCopy(t: Tree, folder: Path, id: u32, f: Node)
    requires folder in t && t[folder] == Dir
    requires LivePath(folder) in t && t[LivePath(folder)] == f && f.File?
    requires BackupPath(folder) !in t && SlotPath(folder, id) !in t
    ensures RestoreWontPanic(t, folder)
    ensures var live, slot := LivePath(folder), SlotPath(folder, id);
            LoadIntended(t, folder, id) == (Ok(()), (t[slot := f][BackupPath(folder) := f] - {live})[live := Symlink(slot)])
  {
    var live, backup, slot := LivePath(folder), BackupPath(folder), SlotPath(folder, id);
    PathsDistinct(folder, id, id);
    assert folder != live && folder != backup && folder != slot by {
      assert |folder| < |live| && |live| == |backup| == |slot|;
    }
    assert Parent(slot) == folder;
    assert ConfigCreatedIntended(t, folder, slot) == (Ok(()), t[slot := f]);
    var t2 := t[slot := f];
    CopyRegular(t2, live, backup);
    assert BackupIntended(t2, folder) == (Ok(()), t2[backup := f]);
  }

  /**
   * Restoring while the live path links to a slot whose document equals the
   * backup's: the backup takes the live path, whether or not a `Game.cfg` is
   * spliced into it first.
   */
  lemma RestoreOverIdenticalBackup(u: Tree, folder: Path, slot: Path, doc: PersistedSettings)
    requires LivePath(folder) in u && u[LivePath(folder)] == Symlink(slot)
    requires slot in u && u[slot] == File(Parsed(doc)) && slot != BackupPath(folder)
    requires BackupPath(folder) in u && u[BackupPath(folder)] == File(Parsed(doc))
    ensures RestoreWontPanic(u, folder)
    ensures Restore(u, folder) == (Ok(()), (u - {BackupPath(folder)})[LivePath(folder) := File(Parsed(doc))])
  {
    var live, backup := LivePath(folder), BackupPath(folder);
    LiveIsNotBackup(folder);
    match FirstNamed(doc.files, GameCfg)
    case None =>
      assert Resolve(u, slot) == Found(slot);
      assert Resolve(u, backup) == Found(backup);
      assert SettingsRead(u, slot) == Ok(doc);
      ReinstateMovesBackup(u, folder);
      assert (u - {live} - {backup})[live := u[backup]] == (u - {backup})[live := File(Parsed(doc))];
    case Some(i) =>
      RestoreCarriesGameCfg(u, folder, slot, doc, doc);
      ReplaceFirstWithOwnEntry(doc.files, GameCfg);
      assert doc.(files := ReplaceFirst(doc.files, GameCfg, doc.files[i])) == doc;
  }

  /**
   * The swap round trip: loading a champion that has no slot yet, from a
   * regular live file, links in a copy of that file; restoring afterwards
   * gives the live path its document back, removes the backup and keeps
   * the new slot.
   */
  lemma LoadThenRestoreGivesBack(t: Tree, folder: Path, id: u32, doc: PersistedSettings)
    requires folder in t && t[folder] == Dir
    requires LivePath(folder) in t && t[LivePath(folder)] == File(Parsed(doc))
    requires BackupPath(folder) !in t && SlotPath(folder, id) !in t
    ensures LoadIntended(t, folder, id).0.Ok?
    ensures RestoreWontPanic(LoadIntended(t, folder, id).1, folder)
    ensures Restore(LoadIntended(t, folder, id).1, folder) == (Ok(()), t[SlotPath(folder, id) := File(Parsed(doc))])
  {
    var live, backup, slot := LivePath(folder), BackupPath(folder), SlotPath(folder, id);
    var f := File(Parsed(doc));
    LoadIntendedLinksCopy(t, folder, id, f);
    var loaded := (t[slot := f][backup := f] - {live})[live := Symlink(slot)];
    PathsDistinct(folder, id, id);
    assert LoadIntended(t, folder, id) == (Ok(()), loaded);
    RestoreOverIdenticalBackup(loaded, folder, slot, doc);
    SwapUndone(t, live, backup, slot, f);
  }

  /** The entries a load and a restore touch, put back: only the slot stays. */
  lemma SwapUndone(t: Tree, live: Path, backup: Path, slot: Path, f: Node)
    requires live in t && t[live] == f && backup !in t
    requires live != slot && live != backup && slot != backup
    ensures ((t[slot := f][backup := f] - {live})[live := Symlink(slot)] - {backup})[live := f] == t[slot := f]
  {
    var u := ((t[slot := f][backup := f] - {live})[live := Symlink(slot)] - {backup})[live := f];
    assert u.Keys == t[slot := f].Keys;
  }
}

=== FILE: decimal.dfy ===
/**
 * Decimal text of integers, as Rust's `to_string` writes it for integers and
 * as `str::parse::<u32>` reads it back.
 */
module Decimal {
  import opened Wrappers

  /** Rust's `u32`. */
  type u32 = x: int | 0 <= x < 0x1_0000_0000

  /** Rust's `u16`. */
  type u16 = x: int | 0 <= x < 0x1_0000

  /** An ASCII decimal digit, the only digits `str::parse` accepts. */
  predicate IsDigit(c: char) {
    '0' <= c <= '9'
  }

  predicate AllDigits(s: string) {
    forall i :: 0 <= i < |s| ==> IsDigit(s[i])
  }

  function DigitChar(d: nat): (c: char)
    requires d < 10
    ensures IsDigit(c) && c as int - '0' as int == d
  {
    ('0' as int + d) as char
  }

  function DigitValue(c: char): (d: nat)
    requires IsDigit(c)
    ensures d < 10 && DigitChar(d) == c
  {
    c as int - '0' as int
  }

  /** The decimal text of a non-negative integer: digits only, no leading zero. */
  function NatToString(n: nat): (s: string)
    ensures |s| > 0 && AllDigits(s)
    ensures s[0] == '0' ==> n == 0 && s == "0"
    decreases n
  {
    if n < 10 then [DigitChar(n)] else NatToString(n / 10) + [DigitChar(n % 10)]
  }

  /** The number a string of ASCII digits denotes. */
  function ValueOf(s: string): nat
    requires AllDigits(s)
  {
    if s == [] then 0 else ValueOf(s[..|s| - 1]) * 10 + DigitValue(s[|s| - 1])
  }

  /** Reading back the text of `n` gives `n`. */
  lemma {:induction false} ValueOfNatToString(n: nat)
    ensures ValueOf(NatToString(n)) == n
    decreases n
  {
    var s := NatToString(n);
    if n >= 10 {
      ValueOfNatToString(n / 10);
      assert s[..|s| - 1] == NatToString(n / 10);
    }
  }

  /** Different numbers have different texts. */
  lemma NatToStringInjective(a: nat, b: nat)
    requires NatToString(a) == NatToString(b)
    ensures a == b
  {
    ValueOfNatToString(a);
    ValueOfNatToString(b);
  }

  /** `i64::to_string`: a minus sign before the digits of a negative number. */
  function IntToString(i: int): (s: string)
    ensures |s| > 0
    ensures s[0] == '-' <==> i < 0
    ensures i >= 0 ==> AllDigits(s) && ValueOf(s) == i
    ensures i < 0 ==> AllDigits(s[1..]) && |s| > 1 && ValueOf(s[1..]) == -i
  {
    if i < 0 then
      ValueOfNatToString(-i);
      assert ("-" + NatToString(-i))[1..] == NatToString(-i);
      "-" + NatToString(-i)
    else
      ValueOfNatToString(i);
      NatToString(i)
  }

  /** Different integers have different texts. */
  lemma IntToStringInjective(a: int, b: int)
    requires IntToString(a) == IntToString(b)
    ensures a == b
  {
    if a < 0 {
      assert b < 0;
      assert NatToString(-a) == IntToString(a)[1..];
      NatToStringInjective(-a, -b);
    } else {
      assert b >= 0;
      NatToStringInjective(a, b);
    }
  }

  /** The digits `str::parse` reads: Rust accepts one leading `+` before them. */
  function Unsigned(s: string): (d: string)
    ensures d == s || (|s| > 0 && s[0] == '+' && d == s[1..])
  {
    if |s| > 0 && s[0] == '+' then s[1..] else s
  }

  /**
   * `str::parse::<u32>`: the value when the text, after an optional `+`, is a
   * non-empty run of ASCII digits whose value fits in 32 bits.
   */
  function ParseU32(s: string): (r: Option<u32>)
    ensures r.Some? <==> var d := Unsigned(s); |d| > 0 && AllDigits(d) && ValueOf(d) < 0x1_0000_0000
    ensures r.Some? ==> r.value == ValueOf(Unsigned(s))
    ensures |s| > 0 && IsDigit(s[0]) ==> Unsigned(s) == s
  {
    var d := Unsigned(s);
    if |d| > 0 && AllDigits(d) && ValueOf(d) < 0x1_0000_0000 then Some(ValueOf(d)) else None
  }

  /** Parsing the text of a 32-bit number gives the number back. */
  lemma ParseU32RoundTrip(n: u32)
    ensures ParseU32(NatToString(n)) == Some(n)
  {
    ValueOfNatToString(n);
  }
}

=== FILE: fs.dfy ===
/**
 * The filesystem the configuration swap works on, and the `std::fs` calls it
 * makes, with their POSIX behaviour.
 *
 * The filesystem is a map from absolute paths to entries. It is flat: the
 * existence of parent directories is not tracked, and a directory is a single
 * entry whose contents are not modelled. A symbolic link holds an absolute
 * target; calls that follow links follow at most MaxHops of them. A hard link
 * is an entry equal to the one it was made from (no code here writes through
 * one name and reads through the other).
 */
module Fs {
  import opened Wrappers
  import opened Structs

  type Path = seq<string>

  /** A regular file holds a settings document, or text that is not one. */
  datatype Content = Parsed(settings: PersistedSettings) | Unparsable(text: string)

  /** What a truncated file holds. */
  const Empty: Content := Unparsable("")

  datatype Node = File(content: Content) | Dir | Symlink(target: Path)

  type Tree = map<Path, Node>

  datatype IoError =
    | NotFound
    | AlreadyExists
    | IsADirectory
    | NotADirectory
    | InvalidInput
    | PermissionDenied
    | FilesystemLoop

  type IoResult = Result<(), IoError>

  /** Linux's MAXSYMLINKS: the number of links a path lookup follows before giving up. */
  const MaxHops: nat := 40

  /** Where following links from a path ends: at an entry that is not a link, at a missing path, or nowhere. */
  datatype Lookup = Found(at: Path) | Missing(at: Path) | Looping

  function Follow(t: Tree, p: Path, hops: nat): (l: Lookup)
    ensures l.Found? ==> l.at in t && !t[l.at].Symlink?
    ensures l.Missing? ==> l.at !in t
    ensures p !in t ==> l == Missing(p)
    ensures p in t && !t[p].Symlink? ==> l == Found(p)
    decreases hops
  {
    if p !in t then Missing(p)
    else if !t[p].Symlink? then Found(p)
    else if hops == 0 then Looping
    else Follow(t, t[p].target, hops - 1)
  }

  /** Path lookup as `open` and `stat` do it. */
  function Resolve(t: Tree, p: Path): (l: Lookup)
    ensures l.Found? ==> l.at in t && !t[l.at].Symlink?
    ensures l.Missing? ==> l.at !in t
    ensures p !in t ==> l == Missing(p)
    ensures p in t && !t[p].Symlink? ==> l == Found(p)
  {
    Follow(t, p, MaxHops)
  }

  /** `Path::exists`: the path leads, through any links, to an entry. */
  predicate PathExists(t: Tree, p: Path)
    ensures p !in t ==> !PathExists(t, p)
    ensures p in t && !t[p].Symlink? ==> PathExists(t, p)
  {
    Resolve(t, p).Found?
  }

  /** The path leads to a regular file, so that opening and reading it succeed. */
  predicate Opens(t: Tree, p: Path)
    ensures Opens(t, p) ==> PathExists(t, p) && t[Resolve(t, p).at].File?
    ensures p in t && !t[p].Symlink? ==> (Opens(t, p) <==> t[p].File?)
  {
    Resolve(t, p).Found? && t[Resolve(t, p).at].File?
  }

  /** The entry a path leads to. */
  function Target(t: Tree, p: Path): (n: Node)
    requires PathExists(t, p)
    ensures !n.Symlink?
  {
    t[Resolve(t, p).at]
  }

  /** `fs::metadata`: the entry reached by following links. */
  function Stat(t: Tree, p: Path): (r: Result<Node, IoError>)
    ensures r.Ok? <==> PathExists(t, p)
    ensures r.Ok? ==> !r.value.Symlink?
    ensures r.Err? && r.error == NotFound <==> Resolve(t, p).Missing?
  {
    match Resolve(t, p)
    case Found(f) => Ok(t[f])
    case Missing(_) => Err(NotFound)
    case Looping => Err(FilesystemLoop)
  }

  /** `fs::read_link`: the target of a link, without following it. */
  function LinkTarget(t: Tree, p: Path): (r: Result<Path, IoError>)
    ensures r.Ok? <==> p in t && t[p].Symlink?
    ensures r.Ok? ==> r.value == t[p].target
  {
    if p !in t then Err(NotFound)
    else if t[p].Symlink? then Ok(t[p].target)
    else Err(InvalidInput)
  }

  /** `fs::remove_file`: removes a file or a link itself; directories are refused. */
  function Removed(t: Tree, p: Path): (r: (IoResult, Tree))
    ensures r.0.Ok? <==> p in t && !t[p].Dir?
    ensures r.1 == if r.0.Ok? then t - {p} else t
  {
    if p !in t then (Err(NotFound), t)
    else if t[p].Dir? then (Err(IsADirectory), t)
    else (Ok(()), t - {p})
  }

  /**
   * `fs::copy`: the source must lead to a regular file; the destination is
   * opened for writing with create and truncate, following links, so a
   * dangling destination link creates its target, and copying a file onto
   * itself leaves it empty.
   */
  function Copied(t: Tree, src: Path, dst: Path): (r: (IoResult, Tree))
    ensures r.0.Ok? <==> && Opens(t, src) && !Resolve(t, dst).Looping?
                         && (Resolve(t, dst).Found? ==> !t[Resolve(t, dst).at].Dir?)
    ensures r.0.Err? ==> r.1 == t
    ensures r.0.Ok? && Resolve(t, dst) != Resolve(t, src) ==>
              r.1 == t[Resolve(t, dst).at := t[Resolve(t, src).at]]
    ensures Opens(t, src) && Resolve(t, dst) == Resolve(t, src) ==>
              r == (Ok(()), t[Resolve(t, src).at := File(Empty)])
  {
    match Resolve(t, src)
    case Missing(_) => (Err(NotFound), t)
    case Looping => (Err(FilesystemLoop), t)
    case Found(s) =>
      if !t[s].File? then (Err(InvalidInput), t)
      else
        match Resolve(t, dst)
        case Looping => (Err(FilesystemLoop), t)
        case Missing(m) => (Ok(()), t[m := File(t[s].content)])
        case Found(d) =>
          if t[d].Dir? then (Err(IsADirectory), t)
          else if d == s then (Ok(()), t[d := File(Empty)])
          else (Ok(()), t[d := File(t[s].content)])
  }

  /** The common case of a copy: a regular file onto a missing path or another regular file. */
  lemma CopyRegular(t: Tree, src: Path, dst: Path)
    requires src in t && t[src].File?
    requires dst != src && (dst !in t || t[dst].File?)
    ensures Copied(t, src, dst) == (Ok(()), t[dst := t[src]])
  {
  }

  /** Copying onto a link whose target is missing creates the target, not a file in the link's place. */
  lemma CopyOntoDanglingLink(t: Tree, src: Path, dst: Path)
    requires Opens(t, src)
    requires dst in t && t[dst].Symlink? && t[dst].target !in t
    ensures Copied(t, src, dst) == (Ok(()), t[t[dst].target := t[Resolve(t, src).at]])
    ensures dst in Copied(t, src, dst).1 && Copied(t, src, dst).1[dst] == t[dst]
  {
  }

  /**
   * `fs::rename`: moves an entry (a link is moved, not followed) over
   * whatever is at the destination, except that a directory and a
   * non-directory cannot replace one another.
   */
  function Renamed(t: Tree, from: Path, to: Path): (r: (IoResult, Tree))
    ensures r.0.Ok? ==> from in t && r.1 == if from == to then t else (t - {from})[to := t[from]]
    ensures r.0.Err? ==> r.1 == t
    ensures from in t && to !in t ==> r.0.Ok?
  {
    if from !in t then (Err(NotFound), t)
    else if from == to then (Ok(()), t)
    else if to in t && t[to].Dir? && !t[from].Dir? then (Err(IsADirectory), t)
    else if to in t && !t[to].Dir? && t[from].Dir? then (Err(NotADirectory), t)
    else (Ok(()), (t - {from})[to := t[from]])
  }

  /**
   * `fs::hard_link`: a new name for an existing non-directory entry (a link
   * at the source is not followed); the new name must be free.
   */
  function HardLinked(t: Tree, src: Path, dst: Path): (r: (IoResult, Tree))
    ensures r.0.Ok? <==> src in t && !t[src].Dir? && dst !in t
    ensures r.1 == if r.0.Ok? then t[dst := t[src]] else t
  {
    if src !in t then (Err(NotFound), t)
    else if t[src].Dir? then (Err(PermissionDenied), t)
    else if dst in t then (Err(AlreadyExists), t)
    else (Ok(()), t[dst := t[src]])
  }

  /** `std::os::unix::fs::symlink`: a new link at a free path. */
  function SymLinked(t: Tree, target: Path, dst: Path): (r: (IoResult, Tree))
    ensures r.0.Ok? <==> dst !in t
    ensures r.1 == if r.0.Ok? then t[dst := Symlink(target)] else t
  {
    if dst in t then (Err(AlreadyExists), t) else (Ok(()), t[dst := Symlink(target)])
  }

  /**
   * `fs::create_dir_all` of one path: an existing directory (through links)
   * is fine, a free path becomes a directory, anything else is in the way.
   */
  function DirsCreated(t: Tree, p: Path): (r: (IoResult, Tree))
    ensures r.0.Ok? <==> p !in t || (PathExists(t, p) && Target(t, p).Dir?)
    ensures r.1 == if p !in t then t[p := Dir] else t
  {
    if p !in t then (Ok(()), t[p := Dir])
    else if PathExists(t, p) && Target(t, p).Dir? then (Ok(()), t)
    else (Err(AlreadyExists), t)
  }

  /** The operating system's filesystem: the state the `std::fs` calls read and change. */
  class FileSystem {
    var tree: Tree

    constructor (t: Tree)
      ensures tree == t
    {
      tree := t;
    }

    method Exists(p: Path) returns (b: bool)
      ensures b <==> PathExists(tree, p)
    {
      b := Resolve(tree, p).Found?;
    }

    method Metadata(p: Path) returns (r: Result<Node, IoError>)
      ensures r == Stat(tree, p)
    {
      r := Stat(tree, p);
    }

    method ReadLink(p: Path) returns (r: Result<Path, IoError>)
      ensures r == LinkTarget(tree, p)
    {
      r := LinkTarget(tree, p);
    }

    method Copy(src: Path, dst: Path) returns (r: IoResult)
      modifies this
      ensures (r, tree) == Copied(old(tree), src, dst)
    {
      var after := Copied(tree, src, dst);
      r, tree := after.0, after.1;
    }

    method RemoveFile(p: Path) returns (r: IoResult)
      modifies this
      ensures (r, tree) == Removed(old(tree), p)
    {
      var after := Removed(tree, p);
      r, tree := after.0, after.1;
    }

    method Rename(from: Path, to: Path) returns (r: IoResult)
      modifies this
      ensures (r, tree) == Renamed(old(tree), from, to)
    {
      var after := Renamed(tree, from, to);
      r, tree := after.0, after.1;
    }

    method HardLink(src: Path, dst: Path) returns (r: IoResult)
      modifies this
      ensures (r, tree) == HardLinked(old(tree), src, dst)
    {
      var after := HardLinked(tree, src, dst);
      r, tree := after.0, after.1;
    }

    method CreateDirAll(p: Path) returns (r: IoResult)
      modifies this
      ensures (r, tree) == DirsCreated(old(tree), p)
    {
      var after := DirsCreated(tree, p);
      r, tree := after.0, after.1;
    }

    /** Replaces the content of the regular file `f` (an opened, written file). */
    method Overwrite(f: Path, c: Content)
      requires f in tree && tree[f].File?
      modifies this
      ensures tree == old(tree)[f := File(c)]
    {
      tree := tree[f := File(c)];
    }
  }
}

=== FILE: structs.dfy ===
/**
 * The records of src/league_client/structs.rs and the two hand-written serde
 * deserialisers there (`to_str` and the timer phase), over an already-parsed
 * JSON value.
 *
 * A JSON value is serde_json's `Value`; numbers are integers only. A struct
 * deserialised with serde's derive accepts either an object holding every
 * field exactly once (other keys are ignored) or an array with exactly one
 * element per field, in declaration order; fields are renamed to camelCase.
 */
module Structs {
  import opened Wrappers
  import opened Decimal

  datatype Json =
    | Null
    | Bool(b: bool)
    | Int(i: int)
    | Str(s: string)
    | Arr(items: seq<Json>)
    | Obj(members: seq<Member>)

  datatype Member = Member(key: string, value: Json)

  /** Every way serde can reject a value; which message it gives is not modelled. */
  datatype DecodeError = Malformed

  /** The values stored under key `k`, in document order. */
  function Occurrences(ms: seq<Member>, k: string): (vs: seq<Json>)
    ensures |vs| <= |ms|
  {
    if ms == [] then []
    else if ms[0].key == k then [ms[0].value] + Occurrences(ms[1..], k)
    else Occurrences(ms[1..], k)
  }

  /** A struct field read from an object: missing and repeated keys are errors. */
  function Field(ms: seq<Member>, k: string): (r: Result<Json, DecodeError>)
    ensures r.Ok? <==> |Occurrences(ms, k)| == 1
    ensures r.Ok? ==> r.value == Occurrences(ms, k)[0]
  {
    var vs := Occurrences(ms, k);
    if |vs| == 1 then Ok(vs[0]) else Err(Malformed)
  }

  function FieldsOf(ms: seq<Member>, names: seq<string>): (r: Result<seq<Json>, DecodeError>)
    ensures r.Ok? <==> forall i :: 0 <= i < |names| ==> Field(ms, names[i]).Ok?
    ensures r.Ok? ==> |r.value| == |names|
    ensures r.Ok? ==> forall i :: 0 <= i < |names| ==> Field(ms, names[i]) == Ok(r.value[i])
    decreases |names|
  {
    if names == [] then Ok([])
    else
      match Field(ms, names[0])
      case Err(e) => Err(e)
      case Ok(x) =>
        match FieldsOf(ms, names[1..])
        case Err(e) => Err(e)
        case Ok(rest) => Ok([x] + rest)
  }

  /** The field values of a struct named `names`, from an object or an array. */
  function Fields(v: Json, names: seq<string>): (r: Result<seq<Json>, DecodeError>)
    ensures r.Ok? ==> |r.value| == |names|
    ensures v.Arr? ==> (r.Ok? <==> |v.items| == |names|)
    ensures v.Arr? && r.Ok? ==> r.value == v.items
    ensures v.Obj? ==> r == FieldsOf(v.members, names)
    ensures !v.Arr? && !v.Obj? ==> r.Err?
  {
    match v
    case Arr(items) => if |items| == |names| then Ok(items) else Err(Malformed)
    case Obj(ms) => FieldsOf(ms, names)
    case _ => Err(Malformed)
  }

  function DecodeU32(v: Json): (r: Result<u32, DecodeError>)
    ensures r.Ok? <==> v.Int? && 0 <= v.i < 0x1_0000_0000
    ensures r.Ok? ==> r.value == v.i
  {
    if v.Int? && 0 <= v.i < 0x1_0000_0000 then Ok(v.i) else Err(Malformed)
  }

  function DecodeU16(v: Json): (r: Result<u16, DecodeError>)
    ensures r.Ok? <==> v.Int? && 0 <= v.i < 0x1_0000
    ensures r.Ok? ==> r.value == v.i
  {
    if v.Int? && 0 <= v.i < 0x1_0000 then Ok(v.i) else Err(Malformed)
  }

  function DecodeString(v: Json): (r: Result<string, DecodeError>)
    ensures r.Ok? <==> v.Str?
    ensures r.Ok? ==> r.value == v.s
  {
    if v.Str? then Ok(v.s) else Err(Malformed)
  }

  /**
   * `to_str`: an identifier sent either as a string or as a number is read as
   * a string; booleans become "true"/"false"; null, arrays and objects are
   * rejected.
   */
  function ToStr(v: Json): (r: Result<string, DecodeError>)
    ensures v.Int? ==> r.Ok? && (v.i >= 0 ==> AllDigits(r.value) && ValueOf(r.value) == v.i)
    ensures v.Int? && v.i < 0 ==> |r.value| > 1 && r.value[0] == '-' && AllDigits(r.value[1..]) && ValueOf(r.value[1..]) == -v.i
    ensures v.Null? || v.Arr? || v.Obj? ==> r.Err?
  {
    match v
    case Str(s) => Ok(s)
    case Int(n) => Ok(IntToString(n))
    case Bool(b) => if b then Ok("true") else Ok("false")
    case _ => Err(Malformed)
  }

  /** A number and its decimal text are the same identifier to `to_str`. */
  lemma ToStrRepresentationIndependent(n: int)
    ensures ToStr(Int(n)) == ToStr(Str(IntToString(n))) == Ok(IntToString(n))
  {
  }

  /** `to_str` never merges two different numbers, nor a number with a boolean. */
  lemma ToStrDistinguishes(a: int, b: int)
    ensures ToStr(Int(a)) == ToStr(Int(b)) ==> a == b
    ensures ToStr(Int(a)) != ToStr(Bool(true)) && ToStr(Int(a)) != ToStr(Bool(false))
  {
    if ToStr(Int(a)) == ToStr(Int(b)) {
      IntToStringInjective(a, b);
    }
    var s := IntToString(a);
    assert s[0] == '-' || IsDigit(s[0]);
  }

  /** Which values `to_str` accepts, and what it gives for each. */
  lemma ToStrCases(v: Json)
    ensures ToStr(v).Ok? <==> v.Str? || v.Int? || v.Bool?
    ensures v.Str? ==> ToStr(v) == Ok(v.s)
    ensures v.Bool? ==> ToStr(v) == Ok(if v.b then "true" else "false")
  {
  }

  datatype Phase = BanPick | Finalization | Other

  /** The timer phase: any string decodes (unknown ones to Other); a non-string is an error. */
  function DecodePhase(v: Json): (r: Result<Phase, DecodeError>)
    ensures r.Ok? <==> v.Str?
  {
    match v
    case Str(s) =>
      if s == "BAN_PICK" then Ok(BanPick)
      else if s == "FINALIZATION" then Ok(Finalization)
      else Ok(Other)
    case _ => Err(Malformed)
  }

  lemma DecodePhaseCases(v: Json)
    ensures DecodePhase(v).Ok? <==> v.Str?
    ensures DecodePhase(v) == Ok(Finalization) <==> v == Str("FINALIZATION")
    ensures DecodePhase(v) == Ok(BanPick) <==> v == Str("BAN_PICK")
    ensures v.Str? && v.s != "FINALIZATION" && v.s != "BAN_PICK" ==> DecodePhase(v) == Ok(Other)
  {
  }

  datatype TeamMember = TeamMember(summonerId: string, championId: u32)

  datatype ChampionSelectTimer = ChampionSelectTimer(phase: Phase)

  datatype ChampionSelectSessionUpdate = ChampionSelectSessionUpdate(myTeam: seq<TeamMember>, timer: ChampionSelectTimer)

  datatype LocalSummoner = LocalSummoner(
    displayName: string,
    accountId: string,
    summonerId: string,
    summonerLevel: u16,
    profileIconId: u32)

  /** One entry of the settings document; its sections are never looked into. */
  datatype InnerSettingsFile = InnerSettingsFile(name: string, sections: Json)

  datatype PersistedSettings = PersistedSettings(description: string, files: seq<InnerSettingsFile>)

  const TeamMemberFields := ["summonerId", "championId"]

  /**
   * `TeamMember`: the id read by `to_str` and a `u32` champion id; the
   * member fails exactly when one of its two fields does.
   */
  function DecodeTeamMember(v: Json): (r: Result<TeamMember, DecodeError>)
    ensures var fs := Fields(v, TeamMemberFields);
            r.Ok? <==> fs.Ok? && ToStr(fs.value[0]).Ok? && DecodeU32(fs.value[1]).Ok?
    ensures r.Ok? ==> r.value.summonerId == ToStr(Fields(v, TeamMemberFields).value[0]).value
    ensures r.Ok? ==> r.value.championId == Fields(v, TeamMemberFields).value[1].i
  {
    match Fields(v, TeamMemberFields)
    case Err(e) => Err(e)
    case Ok(fs) =>
      match ToStr(fs[0])
      case Err(e) => Err(e)
      case Ok(id) =>
        match DecodeU32(fs[1])
        case Err(e) => Err(e)
        case Ok(champion) => Ok(TeamMember(id, champion))
  }

  /** A `Vec<TeamMember>`: an array whose every element decodes. */
  function DecodeTeam(v: Json): (r: Result<seq<TeamMember>, DecodeError>)
    ensures r.Ok? <==> v.Arr? && forall i :: 0 <= i < |v.items| ==> DecodeTeamMember(v.items[i]).Ok?
    ensures r.Ok? ==> |r.value| == |v.items|
    ensures r.Ok? ==> forall i :: 0 <= i < |v.items| ==> DecodeTeamMember(v.items[i]) == Ok(r.value[i])
  {
    if v.Arr? then DecodeMembers(v.items) else Err(Malformed)
  }

  function DecodeMembers(items: seq<Json>): (r: Result<seq<TeamMember>, DecodeError>)
    ensures r.Ok? <==> forall i :: 0 <= i < |items| ==> DecodeTeamMember(items[i]).Ok?
    ensures r.Ok? ==> |r.value| == |items|
    ensures r.Ok? ==> forall i :: 0 <= i < |items| ==> DecodeTeamMember(items[i]) == Ok(r.value[i])
    decreases |items|
  {
    if items == [] then Ok([])
    else
      match DecodeTeamMember(items[0])
      case Err(e) => Err(e)
      case Ok(m) =>
        match DecodeMembers(items[1..])
        case Err(e) => Err(e)
        case Ok(rest) => Ok([m] + rest)
  }

  /** `ChampionSelectTimer`: its one field is the phase, and any string is a phase. */
  function DecodeTimer(v: Json): (r: Result<ChampionSelectTimer, DecodeError>)
    ensures r.Ok? <==> Fields(v, ["phase"]).Ok? && Fields(v, ["phase"]).value[0].Str?
    ensures r.Ok? ==> DecodePhase(Fields(v, ["phase"]).value[0]) == Ok(r.value.phase)
  {
    match Fields(v, ["phase"])
    case Err(e) => Err(e)
    case Ok(fs) =>
      match DecodePhase(fs[0])
      case Err(e) => Err(e)
      case Ok(p) => Ok(ChampionSelectTimer(p))
  }

  const SessionUpdateFields := ["myTeam", "timer"]

  /** `ChampionSelectSessionUpdate`: the team and the timer, each decoding as a whole. */
  function DecodeSessionUpdate(v: Json): (r: Result<ChampionSelectSessionUpdate, DecodeError>)
    ensures var fs := Fields(v, SessionUpdateFields);
            r.Ok? <==> fs.Ok? && DecodeTeam(fs.value[0]).Ok? && DecodeTimer(fs.value[1]).Ok?
    ensures r.Ok? ==> var fs := Fields(v, SessionUpdateFields).value;
                      r.value == ChampionSelectSessionUpdate(DecodeTeam(fs[0]).value, DecodeTimer(fs[1]).value)
  {
    match Fields(v, SessionUpdateFields)
    case Err(e) => Err(e)
    case Ok(fs) =>
      match DecodeTeam(fs[0])
      case Err(e) => Err(e)
      case Ok(team) =>
        match DecodeTimer(fs[1])
        case Err(e) => Err(e)
        case Ok(timer) => Ok(ChampionSelectSessionUpdate(team, timer))
  }

  /**
   * A timer object without a `phase` key. Serde derive then asks the phase's
   * own deserializer for the missing value, and its `unwrap` panics.
   */
  predicate PhaseMissing(v: Json) {
    v.Obj? && Occurrences(v.members, "phase") == []
  }

  /**
   * Decoding a session update does not reach that panic. Fields are read in
   * the order serde_json's map yields its keys, which is sorted ("myTeam"
   * before "timer"), or in array order; a team that fails first ends the
   * decoding with an error before the timer is read.
   */
  predicate SessionUpdateWontPanic(v: Json) {
    match v
    case Obj(ms) =>
      var team, timer := Occurrences(ms, "myTeam"), Occurrences(ms, "timer");
      !(timer != [] && PhaseMissing(Last(timer)) && (team == [] || DecodeTeam(Last(team)).Ok?))
    case Arr(items) => !(|items| >= 2 && DecodeTeam(items[0]).Ok? && PhaseMissing(items[1]))
    case _ => true
  }

  /** Every session update that decodes is one whose decoding cannot panic: the panic only replaces an error. */
  lemma DecodedUpdateWontPanic(v: Json)
    requires DecodeSessionUpdate(v).Ok?
    ensures SessionUpdateWontPanic(v)
  {
    var fs := Fields(v, SessionUpdateFields).value;
    if v.Obj? {
      assert Field(v.members, SessionUpdateFields[1]) == Ok(fs[1]);
      assert Occurrences(v.members, "timer") == [fs[1]];
      if fs[1].Obj? {
        assert Field(fs[1].members, "phase").Ok?;
      }
    }
  }

  /** A session update whose timer has no `phase` panics, while the decoder alone would report an error. */
  lemma MissingPhasePanics()
    ensures var v := Obj([Member("myTeam", Arr([])), Member("timer", Obj([]))]);
            !SessionUpdateWontPanic(v) && DecodeSessionUpdate(v).Err?
  {
    var v := Obj([Member("myTeam", Arr([])), Member("timer", Obj([]))]);
    assert Occurrences(v.members, "timer") == [Obj([])];
    assert Occurrences(v.members, "myTeam") == [Arr([])];
    assert DecodeTeam(Arr([])).Ok?;
    assert Fields(Obj([]), ["phase"]).Err?;
  }

  const LocalSummonerFields := ["displayName", "accountId", "summonerId", "summonerLevel", "profileIconId"]

  /** `LocalSummoner`: both ids read by `to_str`, the level a `u16` and the icon a `u32`. */
  function DecodeLocalSummoner(v: Json): (r: Result<LocalSummoner, DecodeError>)
    ensures var fs := Fields(v, LocalSummonerFields);
            r.Ok? <==> && fs.Ok? && fs.value[0].Str? && ToStr(fs.value[1]).Ok? && ToStr(fs.value[2]).Ok?
                       && DecodeU16(fs.value[3]).Ok? && DecodeU32(fs.value[4]).Ok?
    ensures r.Ok? ==> var fs := Fields(v, LocalSummonerFields).value;
                      && r.value.accountId == ToStr(fs[1]).value
                      && r.value.summonerId == ToStr(fs[2]).value
  {
    match Fields(v, LocalSummonerFields)
    case Err(e) => Err(e)
    case Ok(fs) =>
      match (DecodeString(fs[0]), ToStr(fs[1]), ToStr(fs[2]), DecodeU16(fs[3]), DecodeU32(fs[4]))
      case (Ok(name), Ok(account), Ok(summoner), Ok(level), Ok(icon)) =>
        Ok(LocalSummoner(name, account, summoner, level, icon))
      case _ => Err(Malformed)
  }

  /** `RSO`: the authorization record, of which only the platform (region) id is kept. */
  datatype Rso = Rso(currentPlatformId: string)

  function DecodeRso(v: Json): (r: Result<Rso, DecodeError>)
    ensures r.Ok? <==> Fields(v, ["currentPlatformId"]).Ok? && Fields(v, ["currentPlatformId"]).value[0].Str?
    ensures r.Ok? ==> r.value.currentPlatformId == Fields(v, ["currentPlatformId"]).value[0].s
  {
    match Fields(v, ["currentPlatformId"])
    case Err(e) => Err(e)
    case Ok(fs) =>
      match DecodeString(fs[0])
      case Err(e) => Err(e)
      case Ok(id) => Ok(Rso(id))
  }

  /**
   * A team member whose summoner id is sent as the number n decodes exactly
   * like one whose id is sent as the text of n, whatever else the two
   * values hold: only the fields the struct reads matter.
   */
  lemma TeamMemberIdRepresentation(v: Json, w: Json, n: int)
    requires Fields(v, TeamMemberFields).Ok? && Fields(w, TeamMemberFields).Ok?
    requires Fields(v, TeamMemberFields).value[0] == Int(n)
    requires Fields(w, TeamMemberFields).value[0] == Str(IntToString(n))
    requires Fields(v, TeamMemberFields).value[1] == Fields(w, TeamMemberFields).value[1]
    ensures DecodeTeamMember(v) == DecodeTeamMember(w)
    ensures DecodeTeamMember(v).Ok? ==> DecodeTeamMember(v).value.summonerId == IntToString(n)
  {
  }

  /** The same holds for the local summoner's summoner id. */
  lemma LocalSummonerIdRepresentation(v: Json, w: Json, n: int)
    requires Fields(v, LocalSummonerFields).Ok? && Fields(w, LocalSummonerFields).Ok?
    requires var a, b := Fields(v, LocalSummonerFields).value, Fields(w, LocalSummonerFields).value;
             a[2] == Int(n) && b[2] == Str(IntToString(n)) && a[..2] == b[..2] && a[3..] == b[3..]
    ensures DecodeLocalSummoner(v) == DecodeLocalSummoner(w)
    ensures DecodeLocalSummoner(v).Ok? ==> DecodeLocalSummoner(v).value.summonerId == IntToString(n)
  {
    var a, b := Fields(v, LocalSummonerFields).value, Fields(w, LocalSummonerFields).value;
    assert a[0] == a[..2][0] == b[0] && a[1] == a[..2][1] == b[1];
    assert a[3] == a[3..][0] == b[3] && a[4] == a[3..][1] == b[4];
  }

  /** A member whose champion id is not a `u32` fails, whatever shape it has. */
  lemma BadChampionIdRejectsMember(v: Json)
    requires Fields(v, TeamMemberFields).Ok?
    requires DecodeU32(Fields(v, TeamMemberFields).value[1]).Err?
    ensures DecodeTeamMember(v).Err?
  {
  }

  /** One member that does not decode makes the whole session update fail. */
  lemma BadMemberRejectsUpdate(v: Json, i: nat)
    requires Fields(v, SessionUpdateFields).Ok?
    requires var team := Fields(v, SessionUpdateFields).value[0];
             team.Arr? && i < |team.items| && DecodeTeamMember(team.items[i]).Err?
    ensures DecodeSessionUpdate(v).Err?
  {
  }

  // ---------------------------------------------------------------------
  // serde_json's Value
  // ---------------------------------------------------------------------

  /** An object's members, of each key only the last: how serde_json's `Map` keeps a repeated key. */
  function LastWins(ms: seq<Member>): seq<Member> {
    if ms == [] then []
    else if Occurrences(ms[1..], ms[0].key) != [] then LastWins(ms[1..])
    else [ms[0]] + LastWins(ms[1..])
  }

  /** The last element of a non-empty sequence of values. */
  function Last(vs: seq<Json>): Json
    requires vs != []
  {
    vs[|vs| - 1]
  }

  /** After `LastWins`, a key that occurred holds exactly its last value, and no other key appears. */
  lemma {:induction false} LastWinsKeepsLast(ms: seq<Member>, k: string)
    ensures Occurrences(LastWins(ms), k) == if Occurrences(ms, k) == [] then [] else [Last(Occurrences(ms, k))]
  {
    if ms != [] {
      LastWinsKeepsLast(ms[1..], k);
      if ms[0].key == k && Occurrences(ms[1..], k) != [] {
        assert Occurrences(ms, k) == [ms[0].value] + Occurrences(ms[1..], k);
      }
    }
  }

  /** Reading a document into a `Value`: every object, however deeply nested, keeps the last of a repeated key. */
  function Normalized(v: Json): Json
    decreases v
  {
    match v
    case Arr(items) => Arr(seq(|items|, i requires 0 <= i < |items| => Normalized(items[i])))
    case Obj(ms) => Obj(LastWins(seq(|ms|, i requires 0 <= i < |ms| => Member(ms[i].key, Normalized(ms[i].value)))))
    case _ => v
  }

  /** A struct field read from a `Value` is there exactly when its key occurred, with the last value given. */
  lemma FieldOfValue(ms: seq<Member>, k: string)
    ensures Field(LastWins(ms), k).Ok? <==> Occurrences(ms, k) != []
    ensures Field(LastWins(ms), k).Ok? ==> Field(LastWins(ms), k).value == Last(Occurrences(ms, k))
  {
    LastWinsKeepsLast(ms, k);
  }
}

=== FILE: util.dfy ===
/**
 * src/league_client/util.rs: reading the connection credentials out of the
 * client's command line, forming request URLs, and the small filesystem
 * helpers the configuration swap uses.
 */
module Util {
  import opened Wrappers
  import opened Decimal
  import opened Structs
  import opened Fs

  /** The connection credentials (declared in client.rs). */
  datatype Credentials = Credentials(pid: u32, port: string, token: string)

  /**
   * The crate's error type (src/errors.rs), as far as the modelled code
   * produces it: a filesystem error, a JSON error, and the websocket error
   * that ends the event loop.
   */
  datatype Error = Io(io: IoError) | JsonSerde | NoDataAvailable

  type Status = Result<(), Error>

  function Lift(r: IoResult): (s: Status)
    ensures s.Ok? <==> r.Ok?
  {
    if r.Ok? then Ok(()) else Err(Io(r.error))
  }

  // ---------------------------------------------------------------------
  // parse_credentials
  // ---------------------------------------------------------------------

  /** The four command-line patterns: a literal key, a capture group, and for three of them a closing quote. */
  datatype Pattern = AppPid | AuthToken | AppPort | InstallDirectory

  function Key(p: Pattern): (k: string)
    ensures |k| > 0
  {
    match p
    case AppPid => "--app-pid="
    case AuthToken => "--remoting-auth-token="
    case AppPort => "--app-port="
    case InstallDirectory => "--install-directory="
  }

  /** Unicode's White_Space property, which the regex class `\s` denotes. */
  predicate IsWhiteSpace(c: char) {
    || '\t' <= c <= '\r'
    || c == ' '
    || c == '\U{85}'
    || c == '\U{A0}'
    || c == '\U{1680}'
    || '\U{2000}' <= c <= '\U{200A}'
    || c == '\U{2028}'
    || c == '\U{2029}'
    || c == '\U{202F}'
    || c == '\U{205F}'
    || c == '\U{3000}'
  }

  /** The character class repeated inside each capture group: `\d`, `\S` or `[^"]`. */
  predicate InClass(p: Pattern, c: char) {
    match p
    case AppPid => IsDigit(c)
    case AppPort => IsDigit(c)
    case AuthToken => !IsWhiteSpace(c)
    case InstallDirectory => c != '"'
  }

  predicate KeyAt(s: string, i: nat, key: string) {
    i + |key| <= |s| && s[i..i + |key|] == key
  }

  /**
   * The pattern matches at `i` with a group of `n` characters: the key,
   * then `n >= 1` characters of the class, then (except for the port) a
   * double quote.
   */
  predicate MatchesWith(p: Pattern, s: string, i: nat, n: nat) {
    var j := i + |Key(p)|;
    && KeyAt(s, i, Key(p))
    && 0 < n && j + n <= |s|
    && (forall k :: j <= k < j + n ==> InClass(p, s[k]))
    && (p.AppPort? || (j + n < |s| && s[j + n] == '"'))
  }

  /** The end of the longest run of class characters starting at `i`. */
  function RunEnd(p: Pattern, s: string, i: nat): (e: nat)
    requires i <= |s|
    ensures i <= e <= |s|
    ensures forall k :: i <= k < e ==> InClass(p, s[k])
    ensures e == |s| || !InClass(p, s[e])
    decreases |s| - i
  {
    if i < |s| && InClass(p, s[i]) then RunEnd(p, s, i + 1) else i
  }

  /** The last double quote in `s[lo..hi]`, if any. */
  function LastQuote(s: string, lo: nat, hi: nat): (r: Option<nat>)
    requires lo <= hi <= |s|
    ensures r.Some? ==> lo <= r.value < hi && s[r.value] == '"'
    ensures r.Some? ==> forall k :: r.value < k < hi ==> s[k] != '"'
    ensures r.None? ==> forall k :: lo <= k < hi ==> s[k] != '"'
    decreases hi - lo
  {
    if lo == hi then None
    else if s[hi - 1] == '"' then Some(hi - 1)
    else LastQuote(s, lo, hi - 1)
  }

  /**
   * The group the regex captures when its match starts at `i`: greedy
   * repetition takes the longest class run that still lets the rest of
   * the pattern match.
   */
  function CaptureAt(p: Pattern, s: string, i: nat): (r: Option<string>)
    ensures r.Some? ==> KeyAt(s, i, Key(p)) && i + |Key(p)| + |r.value| <= |s|
  {
    var key := Key(p);
    if !KeyAt(s, i, key) then None
    else
      var j := i + |key|;
      var e := RunEnd(p, s, j);
      match p
      case AppPort =>
        if j < e then Some(s[j..e]) else None
      case AppPid =>
        if j < e < |s| && s[e] == '"' then Some(s[j..e]) else None
      case InstallDirectory =>
        if j < e < |s| then Some(s[j..e]) else None
      case AuthToken =>
        if e <= j then None
        else
          match LastQuote(s, j + 1, e)
          case Some(q) => Some(s[j..q])
          case None => None
  }

  /** A match's group lies inside the class run after the key. */
  lemma MatchWithinRun(p: Pattern, s: string, i: nat, n: nat)
    requires MatchesWith(p, s, i, n)
    ensures n <= RunEnd(p, s, i + |Key(p)|) - (i + |Key(p)|)
  {
  }

  /**
   * What `CaptureAt` finds is what the pattern means: a match with the
   * group it captures, the longest such group, and nothing when no match
   * starts at `i`.
   */
  lemma CaptureAtIsLongestMatch(p: Pattern, s: string, i: nat)
    ensures var r := CaptureAt(p, s, i);
            && (r.Some? ==> MatchesWith(p, s, i, |r.value|))
            && (r.Some? ==> r.value == s[i + |Key(p)|..i + |Key(p)| + |r.value|])
            && (r.Some? ==> forall n: nat :: MatchesWith(p, s, i, n) ==> n <= |r.value|)
            && (r.None? ==> forall n: nat :: !MatchesWith(p, s, i, n))
  {
    if p.AuthToken? {
      TokenCaptureIsLongestMatch(s, i);
    } else {
      RunCaptureIsLongestMatch(p, s, i);
    }
  }

  /** The other patterns' case: the group is the whole class run, when what follows it fits. */
  lemma RunCaptureIsLongestMatch(p: Pattern, s: string, i: nat)
    requires !p.AuthToken?
    ensures var r := CaptureAt(p, s, i);
            && (r.Some? ==> MatchesWith(p, s, i, |r.value|))
            && (r.Some? ==> r.value == s[i + |Key(p)|..i + |Key(p)| + |r.value|])
            && (r.Some? ==> forall n: nat :: MatchesWith(p, s, i, n) ==> n <= |r.value|)
            && (r.None? ==> forall n: nat :: !MatchesWith(p, s, i, n))
  {
    if KeyAt(s, i, Key(p)) {
      var j := i + |Key(p)|;
      var e := RunEnd(p, s, j);
      if j < e && (p.AppPort? || (e < |s| && s[e] == '"')) {
        RunCaptured(p, s, i);
      } else {
        RunNotCaptured(p, s, i);
      }
    }
  }

  /** When the class run after the key is followed as the pattern needs, it is the group, and no match has a longer one. */
  lemma RunCaptured(p: Pattern, s: string, i: nat)
    requires !p.AuthToken? && KeyAt(s, i, Key(p))
    requires var j := i + |Key(p)|; var e := RunEnd(p, s, j);
             j < e && (p.AppPort? || (e < |s| && s[e] == '"'))
    ensures var j := i + |Key(p)|; var e := RunEnd(p, s, j);
            && CaptureAt(p, s, i) == Some(s[j..e])
            && MatchesWith(p, s, i, e - j)
            && forall n: nat :: MatchesWith(p, s, i, n) ==> n <= e - j
  {
    var j := i + |Key(p)|;
    var e := RunEnd(p, s, j);
    forall n: nat | MatchesWith(p, s, i, n)
      ensures n <= e - j
    {
      MatchWithinRun(p, s, i, n);
    }
  }

  /** Otherwise there is no capture and no match. */
  lemma RunNotCaptured(p: Pattern, s: string, i: nat)
    requires !p.AuthToken? && KeyAt(s, i, Key(p))
    requires var j := i + |Key(p)|; var e := RunEnd(p, s, j);
             !(j < e && (p.AppPort? || (e < |s| && s[e] == '"')))
    ensures CaptureAt(p, s, i).None?
    ensures forall n: nat :: !MatchesWith(p, s, i, n)
  {
    forall n: nat | MatchesWith(p, s, i, n)
      ensures false
    {
      MatchWithinRun(p, s, i, n);
    }
  }

  /** The token's case: the group ends at the last quote of the non-blank run. */
  lemma TokenCaptureIsLongestMatch(s: string, i: nat)
    ensures var r := CaptureAt(AuthToken, s, i);
            && (r.Some? ==> MatchesWith(AuthToken, s, i, |r.value|))
            && (r.Some? ==> r.value == s[i + |Key(AuthToken)|..i + |Key(AuthToken)| + |r.value|])
            && (r.Some? ==> forall n: nat :: MatchesWith(AuthToken, s, i, n) ==> n <= |r.value|)
            && (r.None? ==> forall n: nat :: !MatchesWith(AuthToken, s, i, n))
  {
    var key := Key(AuthToken);
    if KeyAt(s, i, key) {
      var j := i + |key|;
      var e := RunEnd(AuthToken, s, j);
      forall n: nat | MatchesWith(AuthToken, s, i, n)
        ensures j < e && LastQuote(s, j + 1, e).Some? && n <= LastQuote(s, j + 1, e).value - j
      {
        MatchWithinRun(AuthToken, s, i, n);
        assert s[j + n] == '"' && j + 1 <= j + n < e;
      }
    }
  }

  /** The leftmost position at or after `from` where the pattern matches. */
  function Leftmost(p: Pattern, s: string, from: nat): (r: Option<nat>)
    ensures r.Some? ==> from <= r.value < |s| && CaptureAt(p, s, r.value).Some?
    ensures r.Some? ==> forall k :: from <= k < r.value ==> CaptureAt(p, s, k).None?
    ensures r.None? ==> forall k :: from <= k ==> CaptureAt(p, s, k).None?
    decreases |s| - from
  {
    if from >= |s| then None
    else if CaptureAt(p, s, from).Some? then Some(from)
    else Leftmost(p, s, from + 1)
  }

  /** `Regex::captures(..).get(1)`: the group of the leftmost match. */
  function Capture(p: Pattern, s: string): (r: Option<string>)
    ensures r.Some? <==> exists k :: 0 <= k < |s| && CaptureAt(p, s, k).Some?
    ensures r.Some? ==> exists k :: 0 <= k < |s| && CaptureAt(p, s, k) == r
  {
    match Leftmost(p, s, 0)
    case Some(i) => CaptureAt(p, s, i)
    case None => None
  }

  /**
   * The capture exists exactly when the pattern matches somewhere, and it is
   * the longest group of the match that starts leftmost.
   */
  lemma CaptureIsLeftmostLongest(p: Pattern, s: string, i: nat, n: nat)
    requires MatchesWith(p, s, i, n)
    requires forall k: nat, m :: k < i ==> !MatchesWith(p, s, k, m)
    ensures Capture(p, s).Some?
    ensures MatchesWith(p, s, i, |Capture(p, s).value|)
    ensures n <= |Capture(p, s).value|
    ensures Capture(p, s).value == s[i + |Key(p)|..i + |Key(p)| + |Capture(p, s).value|]
  {
    LeftmostIsFirstMatch(p, s, i, n);
    CaptureAtIsLongestMatch(p, s, i);
  }

  /** The scan stops at the first position where a match starts. */
  lemma LeftmostIsFirstMatch(p: Pattern, s: string, i: nat, n: nat)
    requires MatchesWith(p, s, i, n)
    requires forall k: nat, m :: k < i ==> !MatchesWith(p, s, k, m)
    ensures Leftmost(p, s, 0) == Some(i)
  {
    CaptureAtIsLongestMatch(p, s, i);
    forall k: nat | k < i ensures CaptureAt(p, s, k).None? {
      CaptureAtIsLongestMatch(p, s, k);
    }
  }

  /** Every capture is the group of a match, so without a match anywhere there is no capture. */
  lemma CaptureIsAMatch(p: Pattern, s: string)
    ensures Capture(p, s).Some? ==> exists i: nat :: MatchesWith(p, s, i, |Capture(p, s).value|)
  {
    var l := Leftmost(p, s, 0);
    if l.Some? {
      CaptureAtIsLongestMatch(p, s, l.value);
      assert MatchesWith(p, s, l.value, |CaptureAt(p, s, l.value).value|);
    }
  }

  datatype CredentialsError = PidNotFound | PidNotU32 | PortNotFound | TokenNotFound | InstallDirectoryNotFound

  /**
   * `parse_credentials`: the pid, port, auth token and install directory,
   * each the group of its pattern's leftmost match; the first missing one
   * (in that order) is the error, and a pid that is not a `u32` is one too.
   */
  function ParseCredentials(s: string): (r: Result<(Credentials, string), CredentialsError>)
    ensures r.Ok? <==> && Capture(AppPid, s).Some? && ParseU32(Capture(AppPid, s).value).Some?
                       && Capture(AppPort, s).Some? && Capture(AuthToken, s).Some?
                       && Capture(InstallDirectory, s).Some?
    ensures r.Ok? ==> && r.value.0.pid as int == ValueOf(Unsigned(Capture(AppPid, s).value))
                      && r.value.0.port == Capture(AppPort, s).value
                      && r.value.0.token == Capture(AuthToken, s).value
                      && r.value.1 == Capture(InstallDirectory, s).value
    ensures r.Err? ==> r.error == if Capture(AppPid, s).None? then PidNotFound
                                  else if ParseU32(Capture(AppPid, s).value).None? then PidNotU32
                                  else if Capture(AppPort, s).None? then PortNotFound
                                  else if Capture(AuthToken, s).None? then TokenNotFound
                                  else InstallDirectoryNotFound
  {
    match Capture(AppPid, s)
    case None => Err(PidNotFound)
    case Some(pidText) =>
      match ParseU32(pidText)
      case None => Err(PidNotU32)
      case Some(pid) =>
        match Capture(AppPort, s)
        case None => Err(PortNotFound)
        case Some(port) =>
          match Capture(AuthToken, s)
          case None => Err(TokenNotFound)
          case Some(token) =>
            match Capture(InstallDirectory, s)
            case None => Err(InstallDirectoryNotFound)
            case Some(dir) => Ok((Credentials(pid, port, token), dir))
  }

  /** The pid group is a non-empty run of digits, so no sign is ever stripped from it. */
  lemma PidCaptureIsDigits(s: string)
    ensures Capture(AppPid, s).Some? ==>
              var d := Capture(AppPid, s).value; |d| > 0 && AllDigits(d) && Unsigned(d) == d
  {
    var l := Leftmost(AppPid, s, 0);
    if l.Some? {
      CaptureAtIsLongestMatch(AppPid, s, l.value);
    }
  }

  /** The leftmost pid match decides: if its digits overflow 32 bits, a later well-formed pid does not help. */
  lemma PidOverflowIsError(s: string, i: nat, n: nat)
    requires MatchesWith(AppPid, s, i, n)
    requires forall k: nat, m :: k < i ==> !MatchesWith(AppPid, s, k, m)
    requires ValueOf(s[i + |Key(AppPid)|..i + |Key(AppPid)| + n]) >= 0x1_0000_0000
    ensures ParseCredentials(s) == Err(PidNotU32)
  {
    var j := i + |Key(AppPid)|;
    CaptureIsLeftmostLongest(AppPid, s, i, n);
    var d := Capture(AppPid, s).value;
    // The closing quote after n digits is not a digit, so the greedy group stops there.
    assert |d| == n by {
      assert !IsDigit(s[j + n]);
    }
    assert d == s[j..j + n];
    assert ParseU32(d) == None;
  }

  // ---------------------------------------------------------------------
  // build_uri
  // ---------------------------------------------------------------------

  /** The local client's HTTPS origin for a port. */
  function Origin(port: string): string {
    "https://127.0.0.1:" + port
  }

  /** `build_uri` up to URL parsing: the origin, then the endpoint with a leading slash added if it lacks one. */
  function BuildUri(endpoint: string, port: string): (uri: string)
    ensures |uri| > |Origin(port)| && uri[..|Origin(port)|] == Origin(port) && uri[|Origin(port)|] == '/'
    ensures |endpoint| <= |uri| && uri[|uri| - |endpoint|..] == endpoint
  {
    if |endpoint| > 0 && endpoint[0] == '/' then Origin(port) + endpoint
    else Origin(port) + "/" + endpoint
  }

  /** Every URL is the origin, a slash, and the endpoint without its leading slash. */
  lemma BuildUriShape(endpoint: string, port: string)
    ensures var uri := BuildUri(endpoint, port);
            var path := if |endpoint| > 0 && endpoint[0] == '/' then endpoint[1..] else endpoint;
            uri == Origin(port) + "/" + path
  {
    if |endpoint| > 0 && endpoint[0] == '/' {
      assert endpoint == "/" + endpoint[1..];
    }
  }

  /** An endpoint with and without its leading slash gives the same URL. */
  lemma BuildUriSlashInsensitive(endpoint: string, port: string)
    requires |endpoint| == 0 || endpoint[0] != '/'
    ensures BuildUri(endpoint, port) == BuildUri("/" + endpoint, port)
  {
    assert Origin(port) + "/" + endpoint == Origin(port) + ("/" + endpoint);
  }

  // ---------------------------------------------------------------------
  // Filesystem helpers
  // ---------------------------------------------------------------------

  /**
   * `is_symlink`: asks `fs::metadata`, which follows links, whether the
   * entry is a link. So it never says yes: it fails when the path (or the
   * end of its link chain) is missing, and says no otherwise.
   */
  function SymlinkCheck(t: Tree, p: Path): (r: Result<bool, IoError>)
    ensures r.Ok? <==> PathExists(t, p)
    ensures r.Ok? ==> r.value == false
    ensures r.Err? && r.error == NotFound <==> Resolve(t, p).Missing?
  {
    match Stat(t, p)
    case Ok(n) => Ok(n.Symlink?)
    case Err(e) => Err(e)
  }

  method IsSymlink(fs: FileSystem, p: Path) returns (r: Result<bool, IoError>)
    ensures r == SymlinkCheck(fs.tree, p)
    ensures r.Ok? ==> !r.value
  {
    var m := fs.Metadata(p);
    match m
    case Ok(n) => r := Ok(n.Symlink?);
    case Err(e) => r := Err(e);
  }

  /**
   * `ensure_dir`: an existing path (of any kind, through links) is left
   * alone; a free path becomes a directory; a dangling link or a link loop
   * is an error.
   */
  function DirEnsured(t: Tree, p: Path): (r: (IoResult, Tree))
    ensures PathExists(t, p) ==> r == (Ok(()), t)
    ensures p !in t ==> r == (Ok(()), t[p := Dir])
    ensures p in t && !PathExists(t, p) ==> r.0.Err? && r.1 == t
  {
    match Stat(t, p)
    case Ok(_) => (Ok(()), t)
    case Err(NotFound) => DirsCreated(t, p)
    case Err(e) => (Err(e), t)
  }

  method EnsureDir(fs: FileSystem, p: Path) returns (r: IoResult)
    modifies fs
    ensures (r, fs.tree) == DirEnsured(old(fs.tree), p)
  {
    var m := fs.Metadata(p);
    if m.Err? {
      if m.error == NotFound {
        r := fs.CreateDirAll(p);
        return;
      }
      return Err(m.error);
    }
    r := Ok(());
  }

  /**
   * `read_settings_json`: the document a regular file holds, or a JSON
   * error. The source unwraps opening and reading, so the path must lead to
   * a regular file.
   */
  function SettingsRead(t: Tree, p: Path): (r: Result<PersistedSettings, Error>)
    requires Opens(t, p)
    ensures r.Ok? <==> Target(t, p).content.Parsed?
    ensures r.Ok? ==> r.value == Target(t, p).content.settings
    ensures r.Err? ==> r.error == JsonSerde
  {
    match Target(t, p).content
    case Parsed(doc) => Ok(doc)
    case Unparsable(_) => Err(JsonSerde)
  }

  method ReadSettingsJson(fs: FileSystem, p: Path) returns (r: Result<PersistedSettings, Error>)
    requires Opens(fs.tree, p)
    ensures r == SettingsRead(fs.tree, p)
  {
    var m := fs.Metadata(p);
    var c := m.value.content;
    if c.Parsed? {
      r := Ok(c.settings);
    } else {
      r := Err(JsonSerde);
    }
  }

  /**
   * `write_settings_json`: opens an existing path for writing (through
   * links, without creating it) and replaces the file's document.
   */
  function SettingsWritten(t: Tree, p: Path, doc: PersistedSettings): (r: (Status, Tree))
    ensures r.0.Ok? <==> Opens(t, p)
    ensures r.0.Ok? ==> r.1 == t[Resolve(t, p).at := File(Parsed(doc))]
    ensures r.0.Err? ==> r.1 == t
  {
    match Resolve(t, p)
    case Found(f) =>
      if t[f].Dir? then (Err(Io(IsADirectory)), t) else (Ok(()), t[f := File(Parsed(doc))])
    case Missing(_) => (Err(Io(NotFound)), t)
    case Looping => (Err(Io(FilesystemLoop)), t)
  }

  method WriteSettingsJson(fs: FileSystem, p: Path, doc: PersistedSettings) returns (r: Status)
    modifies fs
    ensures (r, fs.tree) == SettingsWritten(old(fs.tree), p, doc)
  {
    var m := fs.Metadata(p);
    if m.Err? {
      return Err(Io(m.error));
    }
    if m.value.Dir? {
      return Err(Io(IsADirectory));
    }
    fs.Overwrite(Resolve(fs.tree, p).at, Parsed(doc));
    r := Ok(());
  }
}

=== FILE: websocket.dfy ===
/**
 * The push-event decoder of src/league_client/websocket.rs: which websocket
 * frames matter, how a WAMP event is read from one, and which champion, if
 * any, a champion-select update asks the client to load.
 */
module Websocket {
  import opened Wrappers
  import opened Decimal
  import opened Structs

  /** A received websocket message; a data frame's payload is either JSON or not. */
  datatype Frame =
    | Text(payload: Option<Json>)
    | Binary(payload: Option<Json>)
    | Close
    | Ping
    | Pong
  {
    predicate IsData() { Text? || Binary? }
  }

  datatype EventType = Create | Update | Delete

  /** `EventType` deserialisation: exactly three strings are accepted, each naming its own variant. */
  function DecodeEventType(v: Json): (r: Result<EventType, DecodeError>)
    ensures r.Ok? <==> v in [Str("Create"), Str("Update"), Str("Delete")]
    ensures r == Ok(Create) <==> v == Str("Create")
    ensures r == Ok(Update) <==> v == Str("Update")
    ensures r == Ok(Delete) <==> v == Str("Delete")
  {
    match v
    case Str(s) =>
      if s == "Create" then Ok(Create)
      else if s == "Update" then Ok(Update)
      else if s == "Delete" then Ok(Delete)
      else Err(Malformed)
    case _ => Err(Malformed)
  }

  datatype WampBody = WampBody(eventType: EventType, uri: string, data: Json)

  const WampBodyFields := ["eventType", "uri", "data"]

  /**
   * `WampBody`: a known event type, a string uri and any data, which is kept
   * as a `Value` (so a key repeated inside it keeps its last value).
   */
  function DecodeWampBody(v: Json): (r: Result<WampBody, DecodeError>)
    ensures var fs := Fields(v, WampBodyFields);
            r.Ok? <==> fs.Ok? && DecodeEventType(fs.value[0]).Ok? && fs.value[1].Str?
    ensures r.Ok? ==> var fs := Fields(v, WampBodyFields).value;
                      && r.value.eventType == DecodeEventType(fs[0]).value
                      && r.value.uri == fs[1].s
                      && r.value.data == Normalized(fs[2])
  {
    match Fields(v, WampBodyFields)
    case Err(e) => Err(e)
    case Ok(fs) =>
      match (DecodeEventType(fs[0]), DecodeString(fs[1]))
      case (Ok(kind), Ok(uri)) => Ok(WampBody(kind, uri, Normalized(fs[2])))
      case _ => Err(Malformed)
  }

  /** `WampMessage(u32, String, WampBody)`: a tuple struct, read from an array of exactly three. */
  datatype WampMessage = WampMessage(kind: u32, topic: string, body: WampBody)

  function DecodeWampMessage(v: Json): (r: Result<WampMessage, DecodeError>)
    ensures r.Ok? <==> && v.Arr? && |v.items| == 3 && DecodeU32(v.items[0]).Ok?
                       && v.items[1].Str? && DecodeWampBody(v.items[2]).Ok?
    ensures r.Ok? ==> && r.value.kind == v.items[0].i
                      && v.items[1] == Str(r.value.topic)
                      && r.value.body == DecodeWampBody(v.items[2]).value
  {
    match v
    case Arr(items) =>
      if |items| != 3 then Err(Malformed)
      else
        (match (DecodeU32(items[0]), DecodeString(items[1]), DecodeWampBody(items[2]))
         case (Ok(kind), Ok(topic), Ok(body)) => Ok(WampMessage(kind, topic, body))
         case _ => Err(Malformed))
    case _ => Err(Malformed)
  }

  const SubscribedTopic := "OnJsonApiEvent"
  const ChampSelectSessionUri := "/lol-champ-select/v1/session"

  /**
   * `base_on_message`: nothing for a control frame or another topic, an error
   * for a payload that is not a well-formed WAMP message.
   */
  function BaseOnMessage(f: Frame): (r: Result<Option<WampBody>, DecodeError>)
    ensures !f.IsData() ==> r == Ok(None)
    ensures r.Err? <==> f.IsData() && (f.payload.None? || DecodeWampMessage(f.payload.value).Err?)
    ensures f.IsData() && f.payload.Some? && DecodeWampMessage(f.payload.value).Ok? ==>
              var m := DecodeWampMessage(f.payload.value).value;
              r == if m.topic == SubscribedTopic then Ok(Some(m.body)) else Ok(None)
    ensures r.Ok? && r.value.Some? ==>
              f.IsData() && f.payload.Some? && DecodeWampMessage(f.payload.value).Ok?
              && DecodeWampMessage(f.payload.value).value.topic == SubscribedTopic
              && r.value.value == DecodeWampMessage(f.payload.value).value.body
  {
    if !f.IsData() then Ok(None)
    else
      match f.payload
      case None => Err(Malformed)
      case Some(j) =>
        match DecodeWampMessage(j)
        case Err(e) => Err(e)
        case Ok(m) => if m.topic != SubscribedTopic then Ok(None) else Ok(Some(m.body))
  }

  /** `find`: the position of the first member of `team` whose summoner id is `id`. */
  function FirstMatch(team: seq<TeamMember>, id: string): (r: Option<nat>)
    ensures r.Some? ==> r.value < |team| && team[r.value].summonerId == id
    ensures r.Some? ==> forall j :: 0 <= j < r.value ==> team[j].summonerId != id
    ensures r.None? ==> forall j :: 0 <= j < |team| ==> team[j].summonerId != id
  {
    if team == [] then None
    else if team[0].summonerId == id then Some(0)
    else
      match FirstMatch(team[1..], id)
      case None => None
      case Some(i) => Some(i + 1)
  }

  /**
   * `handle_champ_select_v1_update`, with the call to `load_champion_config`
   * replaced by its argument: an error when the data is not a session update;
   * otherwise the champion to load, which exists only in the finalization
   * phase, for a known local summoner present in the team (the first such
   * member). The result of the load itself is ignored by the source.
   */
  function HandleChampSelectUpdate(data: Json, local: Option<LocalSummoner>): (r: Result<Option<u32>, DecodeError>)
    ensures r.Err? <==> DecodeSessionUpdate(data).Err?
  {
    match DecodeSessionUpdate(data)
    case Err(e) => Err(e)
    case Ok(update) =>
      if update.timer.phase != Finalization then Ok(None)
      else
        match local
        case None => Ok(None)
        case Some(s) =>
          match FirstMatch(update.myTeam, s.summonerId)
          case None => Ok(None)
          case Some(i) => Ok(Some(update.myTeam[i].championId))
  }

  /** Handling the frame cannot panic: an Update of the session uri carries data whose decoding does not panic. */
  predicate FrameWontPanic(f: Frame) {
    var base := BaseOnMessage(f);
    (base.Ok? && base.value.Some? && base.value.value.uri == ChampSelectSessionUri
     && base.value.value.eventType == Update) ==> SessionUpdateWontPanic(base.value.value.data)
  }

  /**
   * `on_message`: the champion whose configuration a frame makes the client
   * load. Undecodable frames and uninteresting ones are both ignored; only
   * an `Update` of the champion-select session is handled.
   */
  function OnMessage(f: Frame, local: Option<LocalSummoner>): (r: Option<u32>)
    ensures r.Some? ==> && BaseOnMessage(f).Ok? && BaseOnMessage(f).value.Some?
                        && HandleChampSelectUpdate(BaseOnMessage(f).value.value.data, local) == Ok(r)
    ensures r.Some? ==> local.Some?
  {
    match BaseOnMessage(f)
    case Ok(Some(event)) =>
      if event.uri == ChampSelectSessionUri && event.eventType == Update then
        (match HandleChampSelectUpdate(event.data, local)
         case Ok(choice) => choice
         case Err(_) => None)
      else None
    case _ => None
  }

  /**
   * How `on_message` dispatches: only an Update of the session uri reaches
   * the handler. A proof step only, for `Client.LeagueClient.OnMessage`.
   */
  lemma OnMessageDispatch(f: Frame, local: Option<LocalSummoner>)
    ensures var base := BaseOnMessage(f);
            OnMessage(f, local) ==
              if base.Ok? && base.value.Some? && base.value.value.uri == ChampSelectSessionUri
                 && base.value.value.eventType == Update
              then (match HandleChampSelectUpdate(base.value.value.data, local)
                    case Ok(choice) => choice
                    case Err(_) => None)
              else None
  {
  }

  /** Control frames never lead to a load. */
  lemma ControlFrameIgnored(f: Frame, local: Option<LocalSummoner>)
    requires !f.IsData()
    ensures OnMessage(f, local) == None
  {
  }

  /** A well-formed message on another topic is ignored. */
  lemma OtherTopicIgnored(f: Frame, local: Option<LocalSummoner>)
    requires f.IsData() && f.payload.Some?
    requires DecodeWampMessage(f.payload.value).Ok?
    requires DecodeWampMessage(f.payload.value).value.topic != SubscribedTopic
    ensures BaseOnMessage(f) == Ok(None)
    ensures OnMessage(f, local) == None
  {
  }

  /** An event type outside Create, Update, Delete makes the whole frame undecodable. */
  lemma UnknownEventTypeRejectsFrame(f: Frame, local: Option<LocalSummoner>)
    requires f.IsData() && f.payload.Some? && f.payload.value.Arr? && |f.payload.value.items| == 3
    requires var body := f.payload.value.items[2];
             Fields(body, WampBodyFields).Ok? && DecodeEventType(Fields(body, WampBodyFields).value[0]).Err?
    ensures BaseOnMessage(f).Err?
    ensures OnMessage(f, local) == None
  {
  }

  /** A decode error and an ignored frame look the same to the caller: no load. */
  lemma ErrorTreatedAsNothing(f: Frame, local: Option<LocalSummoner>)
    requires BaseOnMessage(f).Err? || BaseOnMessage(f) == Ok(None)
    ensures OnMessage(f, local) == None
  {
  }

  /** Anything that loads a champion is an Update of the session uri in the finalization phase. */
  lemma LoadOnlyOnSessionUpdateFinalization(f: Frame, local: Option<LocalSummoner>)
    requires OnMessage(f, local).Some?
    ensures BaseOnMessage(f).Ok? && BaseOnMessage(f).value.Some?
    ensures var event := BaseOnMessage(f).value.value;
            && event.uri == ChampSelectSessionUri && event.eventType == Update
            && DecodeSessionUpdate(event.data).Ok?
            && DecodeSessionUpdate(event.data).value.timer.phase == Finalization
            && local.Some?
  {
  }

  /**
   * In the finalization phase the champion loaded is that of the first team
   * member carrying the local summoner's id; without a local summoner or
   * without such a member nothing is loaded.
   */
  lemma FinalizationPicksFirstMatch(data: Json, local: Option<LocalSummoner>)
    requires DecodeSessionUpdate(data).Ok?
    requires DecodeSessionUpdate(data).value.timer.phase == Finalization
    ensures var team := DecodeSessionUpdate(data).value.myTeam;
            HandleChampSelectUpdate(data, local) ==
              if local.Some? && (exists i :: 0 <= i < |team| && team[i].summonerId == local.value.summonerId)
              then Ok(Some(team[FirstMatch(team, local.value.summonerId).value].championId))
              else Ok(None)
  {
  }

  /**
   * Conversely, an Update of the session uri in the finalization phase loads
   * the champion of the first team member carrying the local summoner's id.
   */
  lemma SessionUpdateInFinalizationLoads(f: Frame, local: Option<LocalSummoner>)
    requires BaseOnMessage(f).Ok? && BaseOnMessage(f).value.Some?
    requires var event := BaseOnMessage(f).value.value;
             && event.uri == ChampSelectSessionUri && event.eventType == Update
             && DecodeSessionUpdate(event.data).Ok?
             && DecodeSessionUpdate(event.data).value.timer.phase == Finalization
    requires var team := DecodeSessionUpdate(BaseOnMessage(f).value.value.data).value.myTeam;
             local.Some? && exists i :: 0 <= i < |team| && team[i].summonerId == local.value.summonerId
    ensures var team := DecodeSessionUpdate(BaseOnMessage(f).value.value.data).value.myTeam;
            OnMessage(f, local) == Some(team[FirstMatch(team, local.value.summonerId).value].championId)
  {
    FinalizationPicksFirstMatch(BaseOnMessage(f).value.value.data, local);
  }

  /** Outside finalization a well-formed update never loads anything. */
  lemma NoLoadOutsideFinalization(data: Json, local: Option<LocalSummoner>)
    requires DecodeSessionUpdate(data).Ok?
    requires DecodeSessionUpdate(data).value.timer.phase != Finalization
    ensures HandleChampSelectUpdate(data, local) == Ok(None)
  {
  }
}

=== FILE: wrappers.dfy ===
/** Option and Result, the two failure-carrying shapes the Rust code uses. */
module Wrappers {

  datatype Option<+T> = None | Some(value: T)

  datatype Result<+T, +E> = Ok(value: T) | Err(error: E)
}
